=== FILE: README.md ===
# German chatbot bookkeeping, in Dafny

This project models the gamification and vocabulary bookkeeping of
`german_chatbot.py`, a Streamlit tutor for German. The UI, the language model
and the speech and translation services are left out. The session is an
explicit immutable record with four parts: the message history, the vocabulary
list, the `stats` dictionary and the daily challenge list. Every operation is
a pure transition over that record. The sidebar switches
`enable_daily_challenges` and `enable_achievements`, the day (`today`) and the
model's reply are parameters.

The model is split into modules:

- `Base` (base.dfy) holds shared definitions:
  - `Option`;
  - `Step`, which is either a completed transition or a Python `IndexError`
    raised part-way, carrying the state as the raise left it;
  - duplicate-freedom and prefix predicates.
- `Text` (text.dfy) holds the three pieces of Python string behaviour the
  bookkeeping relies on:
  - `str.strip()`, with Python's exact whitespace set;
  - `str.lower()` and the `in` substring test;
  - `str(n)`.
- `Progress` (progress.dfy) holds the `stats` record, the daily streak,
  `add_achievement`, `check_achievements` and `update_level`.
- `Challenges` (challenges.dfy) holds the fixed catalogue, increments by
  position, displayed progress, completion, and earned and possible points.
- `Markers` (markers.dfy) is the `[VOCAB: german - english]` marker pattern,
  written as an explicit left-to-right scanner. It does what `re.findall`
  and `re.sub` do with it. It is proved to report a match, and resume
  right after it, exactly where the pattern matches at the current
  position, and otherwise to copy one character and resume at the next.
- `Vocabulary` (vocabulary.dfy) is the store update for each marker: lookup
  by trimmed term, sightings and mastery, and points for terms never learned
  before.
- `Conversation` (conversation.dfy) holds the session itself:
  - start and rerun;
  - the stat update after a reply;
  - one extraction call;
  - the translation counter;
  - export and the import merge;
  - a `Wellformed` invariant that every one of these keeps.

`Conversation.Wellformed` holds from the start and is kept by turns, reruns,
extraction and translation. An import may bring in any values, so the model
does not claim that `Wellformed` survives an import.

Dates are day numbers, so "yesterday" is `today - 1`. Counters are unbounded
integers, because an imported file may set them to anything. Lower-casing
folds ASCII capitals, the Latin-1 capitals (which include Ä, Ö and Ü) and ẞ.

The model follows the code in three places where a reader might expect
otherwise:

- A new session's first streak refresh falls on its creation day, so the
  streak stays 0 (not 1) on the first day.
- The level is never lowered, even when imported points would give a lower
  one.
- The apology returned when the model call fails contains "Fehler". It
  therefore counts as a turn and as a grammar correction, worth 20 points.

## Model

| member | source | states |
|---|---|---|
| Progress.UpdateDailyStreak | german_chatbot.py:82-92 | the last activity becomes today; a same-day visit changes nothing; a visit the day after extends the streak by one; any other visit resets it to 1; no other stat changes |
| Progress.ConsecutiveVisitsExtendStreak | german_chatbot.py:82-92 | visits on n consecutive days after the last activity raise the streak by exactly n and end with the last of those days |
| Progress.FreshStreakLagsOneDay | german_chatbot.py:108-143 | on a new session the refresh at start leaves the streak at 0, so n further consecutive days give a streak of n |
| Progress.AddAchievement | german_chatbot.py:94-98 | the name is present afterwards; the list only gains that name; it is unchanged exactly when the name was already there; no duplicate is introduced |
| Progress.CheckAchievements | german_chatbot.py:415-427 | only achievements change, by appending; afterwards an achievement is present iff it was before or its threshold (10 messages, 50 words, 7-day streak, 10 exercises, 500 points) is met; no duplicates |
| Progress.CheckAchievementsIdempotent | german_chatbot.py:415-427 | a second check on unchanged stats adds nothing |
| Progress.LevelFor | german_chatbot.py:102 | the points' level is at most 10, at least 1 for non-negative points, the band of 100 points containing them below 900, and 10 from 900 on |
| Progress.LevelForMonotone | german_chatbot.py:102 | more points never give a lower level |
| Progress.LevelNameInjective | german_chatbot.py:105 | different levels have different "Level N Reached!" names |
| Progress.UpdateLevel | german_chatbot.py:100-105 | the level becomes the larger of the old level and the points' level, so it never falls and stays within 1..10; only on a rise is "Level N Reached!" for the new level added; otherwise nothing changes |
| Progress.LevelJumpUnlocksOnlyFinal | german_chatbot.py:100-105 | on a jump of several levels, no intermediate level's achievement is gained |
| Progress.LevelTracksGrowingPoints | german_chatbot.py:100-105 | a level that agrees with the points keeps agreeing after an update as points grow |
| Challenges.GenerateDailyChallenges | german_chatbot.py:73-80 | the catalogue holds four challenges under distinct names, each with a positive target and reward, all at progress 0 and none complete |
| Challenges.FreshCatalogue | german_chatbot.py:73-80 | the catalogue is, in order, Vocabulary Master (target 5, 50 points), Conversation Starter (10, 30), Grammar Guru (3, 40) and Translation Expert (5, 35), all at progress 0 and none complete, so 155 points are possible and none earned |
| Challenges.Bump | german_chatbot.py:392 | an increment by position fails exactly when the position is past the end, and otherwise changes only that challenge's progress |
| Challenges.ShownProgress | german_chatbot.py:520-528 | the shown progress is the progress capped at the target, and reaching the target on it is exactly completion |
| Challenges.PossiblePoints | german_chatbot.py:750 | with no negative reward the possible points are non-negative and at least every single challenge's reward |
| Challenges.EarnedPoints | german_chatbot.py:751 | with no negative reward the earned points lie between 0 and the possible points and include the reward of every completed challenge |
| Challenges.EarnedAtMostPossible | german_chatbot.py:750-751 | with non-negative rewards, earned points lie between 0 and the possible points, and are 0 when nothing is complete |
| Challenges.EarnedIsPossibleIffAllComplete | german_chatbot.py:750-751 | with positive rewards, earned equals possible iff every challenge is complete |
| Challenges.BumpKeepsCompletion | german_chatbot.py:751 | adding non-negative progress keeps every completed challenge complete and never lowers the earned points |
| Text.Trim | german_chatbot.py:322-323 | the result is the slice left after cutting whitespace from both ends: only whitespace outside it, none at its ends |
| Text.ToLower | german_chatbot.py:395 | lower-casing keeps the length and leaves no ASCII capital; each ASCII capital and each Latin-1 capital (U+00C0 to U+00DE, except the sign U+00D7) moves up 32 code points to its small letter; ẞ (U+1E9E) becomes ß; every other character, lower-case letters included, is kept |
| Text.Contains | german_chatbot.py:395 | the substring test holds iff the word occurs at some position |
| Text.IntToDecimalInjective | german_chatbot.py:105 | different integers have different decimal spellings |
| Markers.MatchPrefix | german_chatbot.py:316 | a match found at the front of the text is a whole match of the pattern, with a non-empty group 1 free of '-' and a non-empty group 2 free of ']' |
| Markers.MatchPrefixComplete | german_chatbot.py:316 | every prefix that matches the pattern is found, with its groups |
| Markers.ScanAtMatch | german_chatbot.py:316-347 | where a match starts, it is reported and shown as its group 1, and the scan resumes right after it |
| Markers.ScanAtNonMatch | german_chatbot.py:316-347 | where no match starts, the first character is shown as it is and the scan resumes at the next one |
| Markers.FailedOpenerResumes | german_chatbot.py:316 | a '[' that starts no match is kept, and a marker that opens at the next character is still found |
| Markers.Scan | german_chatbot.py:316-347 | each reported match costs the display at least 13 characters of the text (opener, separator, one character of group 2 and the bracket), so the display plus 13 per match never exceeds the text's length |
| Markers.ScanGroupsWellFormed | german_chatbot.py:316-317 | every reported match has groups of the pattern's form |
| Markers.ScanLength | german_chatbot.py:347 | the display's length is the input's length minus, for each match, its width less the length of its group 1 |
| Markers.ScanUnchangedIffNoMatch | german_chatbot.py:347 | the display text equals the input iff no match was found |
| Markers.ScanMarkerFree | german_chatbot.py:316-347 | text with no substring matching the pattern yields no match and is shown unchanged |
| Markers.ScanSingleMarker | german_chatbot.py:316-347 | one well-formed marker amid text without '[' is reported alone and shown as its group 1 |
| Markers.ScanExample | german_chatbot.py:316-347 | "Hallo [VOCAB: Hund - dog] heute" shows as "Hallo Hund heute" and yields the single match (Hund, dog) |
| Markers.NestedOpenerInGroupOne | german_chatbot.py:316 | group 1 may itself contain "[VOCAB: " |
| Markers.RewriteNotIdempotent | german_chatbot.py:347 | the display text of one pass can contain a new match, so the rewrite is not idempotent |
| Vocabulary.FindEntry | german_chatbot.py:331 | the lookup finds nothing iff no entry has the term, and otherwise finds the first entry for it |
| Vocabulary.Sighted | german_chatbot.py:333-335 | a sighting adds one to the count and sets Mastered from three sightings on; Mastered never reverts; nothing else changes |
| Vocabulary.See | german_chatbot.py:320-341 | the term has an entry afterwards; entries only grow and keys stay unique; for a known term the only change is one more sighting of its first entry, everything else in the list kept; an unknown term gets a new entry at the end; it is learned, with 10 points, exactly when never learned before |
| Vocabulary.SeeAll | german_chatbot.py:320-341 | over all matches, entries only grow, keys stay unique, learned words are only appended without duplicates, and each one learned earns exactly 10 points; every term seen that had no entry and was never learned is learned; every entry whose term is not seen is left exactly as it was |
| Vocabulary.SeeAllCoversTerms | german_chatbot.py:320-336 | after the loop every term seen has an entry |
| Vocabulary.SeeAllAddsOnlySeen | german_chatbot.py:336-337 | every entry the loop appends is for one of the terms seen |
| Vocabulary.SeeAllOnMarkers | german_chatbot.py:316-341 | in terms of the text's matches: every trimmed group 1 with no entry and never learned is learned, an entry whose term is no trimmed group 1 is unchanged, and every appended entry's term is some trimmed group 1 |
| Vocabulary.SeeByIndex | german_chatbot.py:331-337 | with unique terms, one sighting changes exactly the entry of its term (one more sighting) or appends the new entry, and leaves every other position as it was |
| Vocabulary.SeeAllCountsSightings | german_chatbot.py:320-336 | with unique terms, after the loop each entry's count is its old count (0 for an appended one) plus the number of matches whose trimmed term is its own |
| Vocabulary.SeeAllMastery | german_chatbot.py:320-335 | with unique terms, after the loop an entry is Mastered iff it was already, or its term was seen and its count reached 3 |
| Vocabulary.SeeAllNewEntries | german_chatbot.py:320-336 | stored entries change only in count and mastery; each appended entry is for a term that had no entry and carries the call's day, difficulty and topic |
| Vocabulary.SeeAllFirstTranslation | german_chatbot.py:320-336 | each appended entry holds the translation of the first match for its term |
| Vocabulary.SeeAllLearnsOnlyNew | german_chatbot.py:336-339 | a word is newly learned only if it had no entry before the loop |
| Vocabulary.SeeAllLearnsOnlySeen | german_chatbot.py:337-339 | every word newly learned is one of the terms seen |
| Vocabulary.SeeNewTerm | german_chatbot.py:336-341 | a first sighting of an unknown, unlearned term makes an entry seen once and Learning, learns the term and earns 10 points |
| Vocabulary.SeeKnownTerm | german_chatbot.py:331-335 | a repeat sighting counts once more and earns nothing |
| Vocabulary.ThirdSightingMasters | german_chatbot.py:331-341 | a new term seen three times is Mastered with a count of 3 and earned its 10 points once |
| Progress.InitialStats | german_chatbot.py:111-124 | a new session's stats have every counter, the points, the session time and the pronunciation score at 0, have learned and unlocked nothing, sit at the level their zero points give, have no achievement due, and are unchanged by a refresh on their creation day |
| Conversation.Start | german_chatbot.py:108-143 | a new session is well-formed and empty, with the fresh catalogue, no points, today as last activity and a streak of 0 |
| Conversation.Refresh | german_chatbot.py:143 | the streak refresh on a rerun changes only the streak and the last activity, which becomes today; a second refresh the same day changes nothing; a well-formed session stays well-formed |
| Conversation.Promote | german_chatbot.py:406-411 | after the checks only achievements and level change; the level is the larger of old and points' level; every met threshold is unlocked when achievements are enabled; on a level rise the new level's name is unlocked; every gain is a met threshold or the new level's name |
| Conversation.Turn | german_chatbot.py:383-411 | the exchange is appended and one message counted; points rise by 5, +15 with a correction keyword, +20 with an exercise keyword; counters follow the keywords; the level follows the points; achievements only grow, and a level rise unlocks the new level's name; an index error happens exactly when an increment's position is missing |
| Conversation.TurnStopsPartWay | german_chatbot.py:383-404 | a turn that raises keeps level and achievements; raising at the message challenge it has added only the exchange, the message and its 5 points; raising at the exercise challenge it has also added the keyword counters and points and advanced the message challenge |
| Conversation.TurnAdvancesChallenges | german_chatbot.py:391-404 | a completed turn adds one to the message challenge and, for an exercise, one to the exercise challenge, and only when challenges are enabled |
| Conversation.TurnKeepsWellformed | german_chatbot.py:383-411 | on a well-formed session a turn never raises, stays well-formed and leaves the level equal to the points' level |
| Conversation.FehlerMentionsCorrection | german_chatbot.py:395 | any reply containing "Fehler" passes the correction test |
| Conversation.UebungMentionsExercise | german_chatbot.py:400 | any reply containing "Übung", capital umlaut included, passes the exercise test |
| Conversation.FallbackCountsAsCorrection | german_chatbot.py:365 | the apology reply counts as a correction, worth at least 20 points |
| Conversation.Absorb | german_chatbot.py:336-345 | the store's vocabulary, learned words and points replace the session's; the vocabulary challenge alone grows, by the count learned, and only when enabled; the write-back raises exactly when challenges are enabled, the list is empty and a word was learned |
| Conversation.ExtractVocabulary | german_chatbot.py:315-347 | it raises exactly when challenges are enabled, the challenge list is empty and a word was learned; text without markers changes nothing; otherwise only vocabulary, learned words, points and the vocabulary challenge change; 10 points per learned word; keys stay unique and learned words duplicate-free; every match whose trimmed group 1 had no entry and was never learned is learned; an entry whose term is no match's trimmed group 1 is unchanged; every appended entry's term is the trimmed group 1 of some match; with unique terms, each entry's count grows by the number of matches for its term |
| Conversation.ExtractCountsSightings | german_chatbot.py:320-336 | with unique terms, each entry's count grows by the number of the text's matches for its term, from 0 for an appended one, and an entry is Mastered iff it was already, or its term occurs in the text and its count reached 3 |
| Conversation.ExtractKeepsAndAppends | german_chatbot.py:320-339 | stored entries change only in count and mastery; each appended entry is for a term with no entry before, with the call's day, difficulty and topic and the translation of the first match for its term; a word is newly learned only if it had no entry before |
| Conversation.ExtractRecordsEveryTerm | german_chatbot.py:320-338 | every trimmed term of the text has an entry afterwards, and every newly learned word is one of them |
| Conversation.ExtractOneNewTerm | german_chatbot.py:320-345 | a text whose one marker names a new term adds exactly that entry, learns it, earns 10 points and advances the vocabulary challenge by one |
| Conversation.ExtractAdvancesVocabularyChallenge | german_chatbot.py:344-345 | the vocabulary challenge grows by exactly the number of words newly learned |
| Conversation.RecordTranslation | german_chatbot.py:498-508 | a press with non-blank input adds one to the translation challenge's progress when challenges are enabled; nothing else changes |
| Conversation.ExtractKeepsWellformed | german_chatbot.py:315-347 | on a well-formed session an extraction never raises and keeps it well-formed |
| Conversation.TranslateKeepsWellformed | german_chatbot.py:498-508 | on a well-formed session a translation press never raises and keeps it well-formed |
| Conversation.MergeStats | german_chatbot.py:927 | each stats field present in the file overwrites the session's, and each absent one keeps it |
| Conversation.Export | german_chatbot.py:891-904 | the export carries version "2.0" |
| Conversation.Import | german_chatbot.py:922-929 | messages, vocabulary and challenges present in the file replace the session's; stats are merged field by field; absent keys leave their part unchanged |
| Conversation.ExportImportRoundTrip | german_chatbot.py:891-929 | importing an export into any session reproduces the exported session |
| Conversation.ImportIgnoresMetadata | german_chatbot.py:922-929 | the file's settings, date and version never affect the import |
| Conversation.MergeStatsLaws | german_chatbot.py:927 | an empty stats object changes nothing, merging twice is merging once, and merging a session's own stats changes nothing |

## Left out

- Streamlit page layout, CSS, sidebar widgets, tabs, and the notifications and balloons on an unlock: presentation only.
- The language model call (`chat_with_gpt_enhanced`): an external network call. The reply is an input, including the apology returned on failure.
- Text-to-speech and its temporary files: I/O through foreign libraries.
- `translate_text` and the choice of direction by the presence of ä, ö, ü or ß: an external service. Only the challenge count is modelled.
- JSON serialisation, a file that fails to parse, and the wall clock: library and I/O. A parsed file is a `Document` whose values already have the right shapes, and the export time is a parameter.
- The quiz, grammar exercise and topic picks, and the simulated weekly analytics: they are random and outside the bookkeeping.
- The quiz's answer check (german_chatbot.py:666-680): a right answer adds 25 points and a wrong multiple-choice answer 5. Neither calls `update_level`, so the level can lag the points until the next turn. It is left out because it belongs to the quiz view, whose question and choices are random picks, and because it is UI-driven rather than part of a chat turn or extraction.
- Ratios and averages shown as floats (level progress, challenge completion fraction, insights): display only.
- The "clear conversation" button: it empties the message list and reruns the page, which is UI state.
- The repeated extraction calls on the same reply made by the speech, quiz and history views: one call is modelled. `Markers.RewriteNotIdempotent` shows why a second pass over a display text is a different operation.
- What happens after an `IndexError`: Streamlit shows the exception, and the model stops with the state the raise leaves.
- Text.ToLower: folds only ASCII capitals, the Latin-1 capitals and ẞ. Other Unicode case mappings are left out. A few of them reach ASCII letters (the Kelvin sign K becomes k), so a reply spelled with them can pass Python's keyword test and fail the model's.
- Conversation.Export: its contract states only the version. The content is stated through `Conversation.ExportImportRoundTrip`.

=== FILE: base.dfy ===
/** Small shared vocabulary for the model: optional values, the outcome of a
    step that may raise an index error part-way, and duplicate-freedom. */
module Base {

  /** A value that may be absent: a lookup that found nothing, or a list
      update at a position past the end. */
  datatype Option<+T> = None | Some(value: T)

  /** The outcome of a state transition that indexes the daily challenge list.
      `IndexError` is the list index going out of range: the Python statement
      raises, and the state keeps every mutation made before the raise, which
      `partial` carries. */
  datatype Step<+T> = Ok(value: T) | IndexError(partial: T) {

    /** The state after the step, whether or not it raised. */
    function State(): T {
      match this
      case Ok(v) => v
      case IndexError(p) => p
    }
  }

  /** True iff no element occurs twice. */
  predicate NoDup<T(==)>(s: seq<T>) {
    forall i, j | 0 <= i < j < |s| :: s[i] != s[j]
  }

  /** True iff `p` is a prefix of `s`: `s` only appended to `p`. */
  predicate IsPrefix<T(==)>(p: seq<T>, s: seq<T>) {
    |p| <= |s| && s[..|p|] == p
  }

  /** Appending twice is appending. */
  lemma PrefixTransitive<T>(a: seq<T>, b: seq<T>, c: seq<T>)
    requires IsPrefix(a, b) && IsPrefix(b, c)
    ensures IsPrefix(a, c)
  {
    assert c[..|a|] == c[..|b|][..|a|];
  }

  /** Putting the head back on the tail before appending. */
  lemma HeadTailConcat<T>(p: seq<T>, q: seq<T>)
    requires |p| > 0
    ensures [p[0]] + (p[1..] + q) == p + q
  {
  }

  /** The number of occurrences of `x` in `s`. */
  function Count<T(==)>(s: seq<T>, x: T): nat
    decreases |s|
  {
    if |s| == 0 then 0 else (if s[0] == x then 1 else 0) + Count(s[1..], x)
  }

  function Max(a: int, b: int): int {
    if a >= b then a else b
  }

  function Min(a: int, b: int): int {
    if a <= b then a else b
  }
}

=== FILE: challenges.dfy ===
/** The daily challenge tracker: the fixed catalogue, increments by position,
    and the completion and points summaries the challenge panels display
    (german_chatbot.py lines 73-80, 519-528, 750-751). */
module Challenges {
  import opened Base

  /** One entry of `daily_challenges`. Completion is derived, never stored. */
  datatype Challenge = Challenge(
    name: string,
    description: string,
    target: int,
    progress: int,
    points: int)

  /** `generate_daily_challenges`: the fixed catalogue of four challenges
      under distinct names, each with a positive target and reward, all at
      progress 0 and so none complete. */
  function GenerateDailyChallenges(): (cs: seq<Challenge>)
    ensures |cs| == 4
    ensures forall i | 0 <= i < |cs| :: cs[i].progress == 0 && !IsComplete(cs[i])
    ensures forall i | 0 <= i < |cs| :: cs[i].target > 0 && cs[i].points > 0
    ensures forall i, j | 0 <= i < j < |cs| :: cs[i].name != cs[j].name
  {
    [
      Challenge("Vocabulary Master", "Learn 5 new words", 5, 0, 50),
      Challenge("Conversation Starter", "Send 10 messages", 10, 0, 30),
      Challenge("Grammar Guru", "Complete 3 grammar exercises", 3, 0, 40),
      Challenge("Translation Expert", "Use translation 5 times", 5, 0, 35)
    ]
  }

  /** Positions of the catalogue entries that the program increments. */
  const VocabularyMaster: nat := 0
  const ConversationStarter: nat := 1
  const GrammarGuru: nat := 2
  const TranslationExpert: nat := 3

  /** `daily_challenges[i]["progress"] += n`. An index past the end of the
      list (possible only after importing a shorter list) raises, which is
      `None` here. */
  function Bump(cs: seq<Challenge>, i: nat, n: int): (r: Option<seq<Challenge>>)
    ensures r.None? <==> i >= |cs|
    ensures r.Some? ==> |r.value| == |cs|
    ensures r.Some? ==> r.value[i] == cs[i].(progress := cs[i].progress + n)
    ensures r.Some? ==> forall j | 0 <= j < |cs| && j != i :: r.value[j] == cs[j]
  {
    if i < |cs| then Some(cs[i := cs[i].(progress := cs[i].progress + n)]) else None
  }

  /** The bump made only `if enable_daily_challenges`. */
  function BumpIf(enabled: bool, cs: seq<Challenge>, i: nat, n: int): (r: Option<seq<Challenge>>)
    ensures !enabled ==> r == Some(cs)
    ensures enabled ==> r == Bump(cs, i, n)
  {
    if enabled then Bump(cs, i, n) else Some(cs)
  }

  /** A challenge is complete once its progress reaches its target. */
  predicate IsComplete(c: Challenge) {
    c.progress >= c.target
  }

  /** The progress the panels show: `min(progress, target)`. It never
      exceeds the target, and the panels' test on it, `shown >= target`,
      is exactly completion. */
  function ShownProgress(c: Challenge): (shown: int)
    ensures shown <= c.target
    ensures shown <= c.progress
    ensures shown == c.progress || shown == c.target
    ensures shown >= c.target <==> IsComplete(c)
  {
    Min(c.progress, c.target)
  }

  /** `sum(c["points"] for c in daily_challenges)`. With no negative
      rewards the total is at least every single reward. */
  function PossiblePoints(cs: seq<Challenge>): (p: int)
    ensures NonNegativeRewards(cs) ==> p >= 0 && forall i | 0 <= i < |cs| :: cs[i].points <= p
    decreases |cs|
  {
    if |cs| == 0 then
      0
    else
      assert forall i | 1 <= i < |cs| :: cs[i] == cs[1..][i - 1];
      cs[0].points + PossiblePoints(cs[1..])
  }

  /** The same sum restricted to the completed challenges. With no negative
      rewards it counts the reward of every completed challenge and never
      exceeds the possible points. */
  function EarnedPoints(cs: seq<Challenge>): (e: int)
    ensures NonNegativeRewards(cs) ==> 0 <= e <= PossiblePoints(cs)
    ensures NonNegativeRewards(cs) ==> forall i | 0 <= i < |cs| && IsComplete(cs[i]) :: cs[i].points <= e
    decreases |cs|
  {
    if |cs| == 0 then
      0
    else
      assert forall i | 1 <= i < |cs| :: cs[i] == cs[1..][i - 1];
      (if IsComplete(cs[0]) then cs[0].points else 0) + EarnedPoints(cs[1..])
  }

  /** Every challenge carries a reward of at least zero points. */
  predicate NonNegativeRewards(cs: seq<Challenge>) {
    forall i | 0 <= i < |cs| :: cs[i].points >= 0
  }

  /** With no negative rewards, the earned points never exceed the possible
      points, and they are zero when nothing is complete. */
  lemma {:induction false} EarnedAtMostPossible(cs: seq<Challenge>)
    requires NonNegativeRewards(cs)
    ensures 0 <= EarnedPoints(cs) <= PossiblePoints(cs)
    ensures (forall i | 0 <= i < |cs| :: !IsComplete(cs[i])) ==> EarnedPoints(cs) == 0
    decreases |cs|
  {
    if |cs| > 0 {
      assert NonNegativeRewards(cs[1..]);
      EarnedAtMostPossible(cs[1..]);
    }
  }

  /** With positive rewards, the earned points reach the possible points
      exactly when every challenge is complete. */
  lemma {:induction false} EarnedIsPossibleIffAllComplete(cs: seq<Challenge>)
    requires forall i | 0 <= i < |cs| :: cs[i].points > 0
    ensures EarnedPoints(cs) == PossiblePoints(cs) <==> forall i | 0 <= i < |cs| :: IsComplete(cs[i])
    decreases |cs|
  {
    if |cs| > 0 {
      EarnedIsPossibleIffAllComplete(cs[1..]);
      assert NonNegativeRewards(cs[1..]);
      EarnedAtMostPossible(cs[1..]);
      if forall i | 0 <= i < |cs| - 1 :: IsComplete(cs[1..][i]) {
        assert forall i | 1 <= i < |cs| :: IsComplete(cs[i]) by {
          forall i | 1 <= i < |cs| ensures IsComplete(cs[i]) {
            assert cs[i] == cs[1..][i - 1];
          }
        }
      }
    }
  }

  /** The catalogue, in order: Vocabulary Master (target 5, 50 points),
      Conversation Starter (10, 30), Grammar Guru (3, 40) and Translation
      Expert (5, 35); 155 points in all, none of them complete, so 0 earned. */
  lemma FreshCatalogue()
    ensures |GenerateDailyChallenges()| == 4
    ensures forall i | 0 <= i < 4 :: GenerateDailyChallenges()[i].progress == 0
    ensures forall i | 0 <= i < 4 :: !IsComplete(GenerateDailyChallenges()[i])
    ensures var cs := GenerateDailyChallenges();
            && cs[VocabularyMaster].name == "Vocabulary Master"
            && cs[VocabularyMaster].target == 5 && cs[VocabularyMaster].points == 50
            && cs[ConversationStarter].name == "Conversation Starter"
            && cs[ConversationStarter].target == 10 && cs[ConversationStarter].points == 30
            && cs[GrammarGuru].name == "Grammar Guru"
            && cs[GrammarGuru].target == 3 && cs[GrammarGuru].points == 40
            && cs[TranslationExpert].name == "Translation Expert"
            && cs[TranslationExpert].target == 5 && cs[TranslationExpert].points == 35
    ensures PossiblePoints(GenerateDailyChallenges()) == 155
    ensures EarnedPoints(GenerateDailyChallenges()) == 0
  {
    var cs := GenerateDailyChallenges();
    assert cs[1..][1..][1..][1..] == [];
  }

  /** Adding non-negative progress never undoes a completion and never
      lowers the earned points. */
  lemma {:induction false} BumpKeepsCompletion(cs: seq<Challenge>, i: nat, n: int)
    requires i < |cs| && n >= 0
    requires NonNegativeRewards(cs)
    ensures forall j | 0 <= j < |cs| && IsComplete(cs[j]) :: IsComplete(Bump(cs, i, n).value[j])
    ensures EarnedPoints(cs) <= EarnedPoints(Bump(cs, i, n).value)
    decreases |cs|
  {
    var r := Bump(cs, i, n).value;
    if i > 0 {
      assert Bump(cs[1..], i - 1, n).value == r[1..];
      assert NonNegativeRewards(cs[1..]);
      BumpKeepsCompletion(cs[1..], i - 1, n);
    } else {
      assert r[1..] == cs[1..];
    }
  }
}

=== FILE: conversation.dfy ===
/** The session as a whole: its start, the stat update after each model
    reply, one call of the vocabulary extraction, the translation challenge,
    and the import merge (german_chatbot.py lines 107-145, 315-347, 374-413,
    498-508 and 915-929). The model call itself is left out: the reply is an
    input, whatever produced it. */
module Conversation {
  import opened Base
  import Text
  import opened Progress
  import opened Challenges
  import Markers
  import opened Vocabulary

  datatype Role = User | Assistant

  /** One entry of `messages`. */
  datatype Message = Message(role: Role, content: string)

  /** The sidebar choices the bookkeeping reads. */
  datatype Settings = Settings(
    difficulty: string,
    topic: string,
    enableChallenges: bool,
    enableAchievements: bool)

  /** The session state the bookkeeping owns. */
  datatype Session = Session(
    messages: seq<Message>,
    vocabulary: seq<Entry>,
    stats: Stats,
    challenges: seq<Challenge>)

  /** The state of a new session created on day `today`, before its first
      streak refresh. */
  function InitialSession(today: int): Session {
    Session([], [], InitialStats(today), GenerateDailyChallenges())
  }

  /** The streak refresh that ends `initialize_session_state`, run on every
      rerun of the page: only the streak and the day of last activity
      change, a second refresh on the same day changes nothing, and a
      well-formed session stays well-formed. */
  function Refresh(s: Session, today: int): (r: Session)
    ensures r == s.(stats := r.stats)
    ensures r.stats == s.stats.(dailyStreak := r.stats.dailyStreak, lastActivity := today)
    ensures s.stats.lastActivity == today ==> r == s
    ensures Wellformed(s) ==> Wellformed(r)
  {
    s.(stats := UpdateDailyStreak(s.stats, today))
  }

  /** A session as the first page load leaves it: well-formed, empty, with
      the fresh catalogue, today as last activity and a streak of 0 (its
      first refresh falls on its own creation day). */
  function Start(today: int): (r: Session)
    ensures Wellformed(r)
    ensures r.messages == [] && r.vocabulary == []
    ensures r.stats.dailyStreak == 0 && r.stats.totalPoints == 0
    ensures r.stats.lastActivity == today
    ensures r.challenges == GenerateDailyChallenges()
  {
    Refresh(InitialSession(today), today)
  }

  /** What every session reached from `Start` satisfies: vocabulary terms
      and learned words are unique, achievements are not repeated, the level
      lies in 1..10 and never exceeds the level the points give, points are
      not negative, and the four challenges carry non-negative rewards. */
  predicate Wellformed(s: Session) {
    && UniqueKeys(s.vocabulary)
    && NoDup(s.stats.wordsLearned)
    && NoDup(s.stats.achievements)
    && 1 <= s.stats.level <= 10
    && s.stats.level <= LevelFor(s.stats.totalPoints)
    && s.stats.totalPoints >= 0
    && |s.challenges| == 4
    && NonNegativeRewards(s.challenges)
  }

  // ---------------------------------------------------------------------------
  // One turn
  // ---------------------------------------------------------------------------

  const MessagePoints := 5
  const CorrectionPoints := 15
  const ExercisePoints := 20

  /** The correction test on the lower-cased reply. */
  predicate MentionsCorrection(lowered: string) {
    || Text.Contains(lowered, "korrektur")
    || Text.Contains(lowered, "fehler")
    || Text.Contains(lowered, "richtig")
    || Text.Contains(lowered, "falsch")
  }

  /** The exercise test on the lower-cased reply. */
  predicate MentionsExercise(lowered: string) {
    Text.Contains(lowered, "übung") || Text.Contains(lowered, "exercise")
  }

  /** The points a turn earns. */
  function TurnPoints(corrected: bool, exercised: bool): int {
    MessagePoints
    + (if corrected then CorrectionPoints else 0)
    + (if exercised then ExercisePoints else 0)
  }

  /** How much a completed turn adds to challenge `i`: one message sent, and
      one grammar exercise when the reply mentions one. */
  function TurnProgress(cfg: Settings, exercised: bool, i: int): int {
    if !cfg.enableChallenges then 0
    else if i == ConversationStarter as int then 1
    else if i == GrammarGuru as int && exercised then 1
    else 0
  }

  /** The counters and points a reply's keywords earn, on top of the
      message itself. */
  function Grade(st: Stats, corrected: bool, exercised: bool): (r: Stats)
    ensures r == st.(correctionsMade := r.correctionsMade,
                     grammarExercisesCompleted := r.grammarExercisesCompleted,
                     totalPoints := r.totalPoints)
    ensures r.correctionsMade == st.correctionsMade + (if corrected then 1 else 0)
    ensures r.grammarExercisesCompleted == st.grammarExercisesCompleted + (if exercised then 1 else 0)
    ensures r.totalPoints == st.totalPoints + TurnPoints(corrected, exercised) - MessagePoints
  {
    var st1 := if corrected then
                 st.(correctionsMade := st.correctionsMade + 1,
                     totalPoints := st.totalPoints + CorrectionPoints)
               else st;
    if exercised then
      st1.(grammarExercisesCompleted := st1.grammarExercisesCompleted + 1,
           totalPoints := st1.totalPoints + ExercisePoints)
    else st1
  }

  /** The end of a turn: the achievement check (if enabled) and the level
      update. Only achievements and level change; the level becomes the
      higher of the old one and the one the points give; every achievement
      gained is a met threshold or the name of the level reached. */
  function Promote(st: Stats, enableAchievements: bool): (r: Stats)
    ensures r == st.(achievements := r.achievements, level := r.level)
    ensures r.level == Max(st.level, LevelFor(st.totalPoints))
    ensures IsPrefix(st.achievements, r.achievements)
    ensures NoDup(st.achievements) ==> NoDup(r.achievements)
    ensures enableAchievements ==> forall x | ThresholdMet(r, x) :: x in r.achievements
    ensures forall x | x in r.achievements ::
              || x in st.achievements
              || (enableAchievements && ThresholdMet(r, x))
              || (r.level > st.level && x == LevelName(r.level))
    ensures r.level > st.level ==> LevelName(r.level) in r.achievements
  {
    var st1 := if enableAchievements then CheckAchievements(st) else st;
    var r := UpdateLevel(st1);
    PrefixTransitive(st.achievements, st1.achievements, r.achievements);
    ThresholdsIgnoreRewards(st, r);
    r
  }

  /** The bookkeeping of `process_enhanced_conversation` once `reply` is
      known. A completed turn appends the exchange, counts the message,
      awards 5 points plus 15 for a correction and 20 for an exercise,
      advances the message and exercise challenges, unlocks the achievements
      whose thresholds are met, and raises the level to the points. A
      challenge list too short for those increments raises part-way. */
  function Turn(s: Session, input: string, reply: string, cfg: Settings): (r: Step<Session>)
    ensures var ex := MentionsExercise(Text.ToLower(reply));
            r.Ok? <==> !cfg.enableChallenges || (|s.challenges| > 1 && (!ex || |s.challenges| > 2))
    ensures r.State().messages == s.messages + [Message(User, input), Message(Assistant, reply)]
    ensures r.State().vocabulary == s.vocabulary
    ensures r.State().stats.messagesSent == s.stats.messagesSent + 1
    ensures r.State().stats.totalPoints >= s.stats.totalPoints + MessagePoints
    ensures r.State().stats.wordsLearned == s.stats.wordsLearned
    ensures r.State().stats.dailyStreak == s.stats.dailyStreak
    ensures r.State().stats.lastActivity == s.stats.lastActivity
    ensures r.Ok? ==>
              var v := r.value.stats;
              var co := MentionsCorrection(Text.ToLower(reply));
              var ex := MentionsExercise(Text.ToLower(reply));
              && v.totalPoints == s.stats.totalPoints + TurnPoints(co, ex)
              && v.correctionsMade == s.stats.correctionsMade + (if co then 1 else 0)
              && v.grammarExercisesCompleted == s.stats.grammarExercisesCompleted + (if ex then 1 else 0)
              && v.sessionTime == s.stats.sessionTime
              && v.pronunciationScore == s.stats.pronunciationScore
              && v.level == Max(s.stats.level, LevelFor(v.totalPoints))
              && IsPrefix(s.stats.achievements, v.achievements)
              && (NoDup(s.stats.achievements) ==> NoDup(v.achievements))
              && (cfg.enableAchievements ==> forall x | ThresholdMet(v, x) :: x in v.achievements)
              && (forall x | x in v.achievements ::
                    || x in s.stats.achievements
                    || (cfg.enableAchievements && ThresholdMet(v, x))
                    || (v.level > s.stats.level && x == LevelName(v.level)))
              && (v.level > s.stats.level ==> LevelName(v.level) in v.achievements)
  {
    var lowered := Text.ToLower(reply);
    var corrected := MentionsCorrection(lowered);
    var exercised := MentionsExercise(lowered);
    var msgs := s.messages + [Message(User, input), Message(Assistant, reply)];
    var st1 := s.stats.(messagesSent := s.stats.messagesSent + 1,
                        totalPoints := s.stats.totalPoints + MessagePoints);
    match BumpIf(cfg.enableChallenges, s.challenges, ConversationStarter, 1)
    case None => IndexError(s.(messages := msgs, stats := st1))
    case Some(cs1) =>
      var st2 := Grade(st1, corrected, exercised);
      match (if exercised then BumpIf(cfg.enableChallenges, cs1, GrammarGuru, 1) else Some(cs1))
      case None => IndexError(s.(messages := msgs, stats := st2, challenges := cs1))
      case Some(cs2) =>
        Ok(s.(messages := msgs, stats := Promote(st2, cfg.enableAchievements), challenges := cs2))
  }

  /** A turn that raises part-way keeps what the program had written by
      then: the message and its 5 points always, level and achievements
      never. If the message challenge is missing nothing else happened; if
      only the exercise challenge is missing, the keyword points and
      counters were also added and the message challenge advanced. */
  lemma TurnStopsPartWay(s: Session, input: string, reply: string, cfg: Settings)
    requires Turn(s, input, reply, cfg).IndexError?
    ensures var p := Turn(s, input, reply, cfg).partial;
            p.stats.level == s.stats.level && p.stats.achievements == s.stats.achievements
    ensures var p := Turn(s, input, reply, cfg).partial;
            |s.challenges| <= ConversationStarter ==>
              && p.stats == s.stats.(messagesSent := s.stats.messagesSent + 1,
                                     totalPoints := s.stats.totalPoints + MessagePoints)
              && p.challenges == s.challenges
    ensures var p := Turn(s, input, reply, cfg).partial;
            var co := MentionsCorrection(Text.ToLower(reply));
            var ex := MentionsExercise(Text.ToLower(reply));
            |s.challenges| > ConversationStarter ==>
              && p.stats == s.stats.(messagesSent := s.stats.messagesSent + 1,
                                     correctionsMade := s.stats.correctionsMade + (if co then 1 else 0),
                                     grammarExercisesCompleted := s.stats.grammarExercisesCompleted + (if ex then 1 else 0),
                                     totalPoints := s.stats.totalPoints + TurnPoints(co, ex))
              && p.challenges == s.challenges[ConversationStarter := s.challenges[ConversationStarter].(
                                   progress := s.challenges[ConversationStarter].progress + 1)]
  {
  }

  /** A completed turn advances the message challenge by one and, when the
      reply mentions an exercise, the exercise challenge by one; every other
      challenge, and every challenge when they are disabled, is unchanged. */
  lemma TurnAdvancesChallenges(s: Session, input: string, reply: string, cfg: Settings)
    requires Turn(s, input, reply, cfg).Ok?
    ensures var r := Turn(s, input, reply, cfg).value;
            var ex := MentionsExercise(Text.ToLower(reply));
            && |r.challenges| == |s.challenges|
            && forall i | 0 <= i < |s.challenges| ::
                 r.challenges[i]
                   == s.challenges[i].(progress := s.challenges[i].progress + TurnProgress(cfg, ex, i))
  {
    var ex := MentionsExercise(Text.ToLower(reply));
    var cs1 := BumpIf(cfg.enableChallenges, s.challenges, ConversationStarter, 1).value;
    assert forall i | 0 <= i < |s.challenges| ::
      cs1[i] == s.challenges[i].(progress := s.challenges[i].progress
                                             + (if cfg.enableChallenges && i == 1 then 1 else 0));
  }

  /** A well-formed session completes every turn, stays well-formed, and
      after the turn its level is exactly the level its points give. */
  lemma TurnKeepsWellformed(s: Session, input: string, reply: string, cfg: Settings)
    requires Wellformed(s)
    ensures Turn(s, input, reply, cfg).Ok?
    ensures Wellformed(Turn(s, input, reply, cfg).value)
    ensures Turn(s, input, reply, cfg).value.stats.level
         == LevelFor(Turn(s, input, reply, cfg).value.stats.totalPoints)
  {
    var v := Turn(s, input, reply, cfg).value;
    TurnAdvancesChallenges(s, input, reply, cfg);
    LevelForMonotone(s.stats.totalPoints, v.stats.totalPoints);
    assert NonNegativeRewards(v.challenges) by {
      forall i | 0 <= i < |v.challenges| ensures v.challenges[i].points >= 0 {
        assert v.challenges[i].points == s.challenges[i].points;
      }
    }
  }

  /** The apology the program substitutes when the model call fails. */
  const Fallback: string :=
    "Entschuldigung, es gab einen " + "Fehler" + ". Bitte versuchen Sie es erneut."

  /** Lower-casing works character by character, so it maps a middle piece
      of a text to the lower-cased piece. */
  lemma ToLowerSlice(a: string, b: string, c: string)
    ensures Text.ToLower(a + b + c)[|a|..|a| + |b|] == Text.ToLower(b)
  {
  }

  /** Any reply holding the word "Fehler" ("error"), in whatever context,
      passes the correction test. */
  lemma FehlerMentionsCorrection(a: string, c: string)
    ensures MentionsCorrection(Text.ToLower(a + "Fehler" + c))
  {
    ToLowerSlice(a, "Fehler", c);
    assert Text.ToLower("Fehler") == "fehler" by {
      var l := Text.ToLower("Fehler");
      assert l[0] == 'f' && l[1] == 'e' && l[2] == 'h';
      assert l[3] == 'l' && l[4] == 'e' && l[5] == 'r';
    }
    assert Text.OccursAt(Text.ToLower(a + "Fehler" + c), "fehler", |a|);
  }

  /** Any reply holding the word "Übung" ("exercise"), capital umlaut and
      all, passes the exercise test: the umlaut is folded to "ü". */
  lemma UebungMentionsExercise(a: string, c: string)
    ensures MentionsExercise(Text.ToLower(a + "Übung" + c))
  {
    ToLowerSlice(a, "Übung", c);
    assert Text.ToLower("Übung") == "übung" by {
      var l := Text.ToLower("Übung");
      assert l[0] == 'ü' && l[1] == 'b' && l[2] == 'u';
      assert l[3] == 'n' && l[4] == 'g';
    }
    assert Text.OccursAt(Text.ToLower(a + "Übung" + c), "übung", |a|);
  }

  /** The apology mentions "Fehler", so a failed model call still counts as
      a turn and as a correction: 20 points at least and one more
      correction, although nothing was corrected. */
  lemma FallbackCountsAsCorrection(s: Session, input: string, cfg: Settings)
    requires Turn(s, input, Fallback, cfg).Ok?
    ensures MentionsCorrection(Text.ToLower(Fallback))
    ensures Turn(s, input, Fallback, cfg).value.stats.correctionsMade == s.stats.correctionsMade + 1
    ensures Turn(s, input, Fallback, cfg).value.stats.totalPoints
         >= s.stats.totalPoints + MessagePoints + CorrectionPoints
  {
    FehlerMentionsCorrection("Entschuldigung, es gab einen ", ". Bitte versuchen Sie es erneut.");
  }

  // ---------------------------------------------------------------------------
  // Vocabulary extraction
  // ---------------------------------------------------------------------------

  /** How much one extraction adds to challenge `i`: the number of terms it
      newly learned, on the vocabulary challenge only. */
  function ExtractProgress(cfg: Settings, learned: int, i: int): int {
    if cfg.enableChallenges && i == VocabularyMaster as int then learned else 0
  }

  /** Writing the store of one extraction back into the session: the
      vocabulary, `words_learned` and `total_points` become the store's, and
      the vocabulary challenge advances by the words learned (if any, and if
      challenges are enabled). */
  function Absorb(s: Session, st: Store, cfg: Settings): (r: Step<Session>)
    requires st.newWords == |st.learned| - |s.stats.wordsLearned|
    ensures !cfg.enableChallenges || |s.challenges| > 0 ==> r.Ok?
    ensures r.Ok? <==> !(cfg.enableChallenges && |s.challenges| == 0 && st.newWords > 0)
    ensures r.State() == s.(vocabulary := st.entries,
                            stats := s.stats.(wordsLearned := st.learned, totalPoints := st.points),
                            challenges := r.State().challenges)
    ensures r.Ok? ==>
              && |r.value.challenges| == |s.challenges|
              && forall i | 0 <= i < |s.challenges| ::
                   r.value.challenges[i]
                     == s.challenges[i].(progress := s.challenges[i].progress + ExtractProgress(cfg, st.newWords, i))
  {
    var s1 := s.(vocabulary := st.entries,
                 stats := s.stats.(wordsLearned := st.learned, totalPoints := st.points));
    if st.newWords > 0 && cfg.enableChallenges then
      match Bump(s.challenges, VocabularyMaster, st.newWords)
      case None => IndexError(s1)
      case Some(cs) => Ok(s1.(challenges := cs))
    else
      Ok(s1)
  }

  /** One call of `extract_vocabulary_enhanced`'s store update on `text`.
      Terms are looked up and stored trimmed; only terms never learned
      before earn their 10 points and advance the vocabulary challenge;
      nothing but the vocabulary, `words_learned`, `total_points` and that
      challenge changes. The level is not recomputed here. The text the
      Python function returns is `Markers.Scan(text).display`. */
  function ExtractVocabulary(s: Session, text: string, cfg: Settings, today: int): (r: Step<Session>)
    ensures !cfg.enableChallenges || |s.challenges| > 0 ==> r.Ok?
    ensures r.Ok? <==> !(&& cfg.enableChallenges && |s.challenges| == 0
                          && |r.State().stats.wordsLearned| > |s.stats.wordsLearned|)
    ensures Markers.Scan(text).markers == [] ==> r == Ok(s)
    ensures r.State().messages == s.messages
    ensures r.State().stats == s.stats.(wordsLearned := r.State().stats.wordsLearned,
                                        totalPoints := r.State().stats.totalPoints)
    ensures IsPrefix(s.stats.wordsLearned, r.State().stats.wordsLearned)
    ensures r.State().stats.totalPoints == s.stats.totalPoints
              + PointsPerWord * (|r.State().stats.wordsLearned| - |s.stats.wordsLearned|)
    ensures NoDup(s.stats.wordsLearned) ==> NoDup(r.State().stats.wordsLearned)
    ensures UniqueKeys(s.vocabulary) ==> UniqueKeys(r.State().vocabulary)
    ensures Grows(s.vocabulary, r.State().vocabulary)
    ensures r.Ok? ==>
              var learned := |r.value.stats.wordsLearned| - |s.stats.wordsLearned|;
              && |r.value.challenges| == |s.challenges|
              && forall i | 0 <= i < |s.challenges| ::
                   r.value.challenges[i]
                     == s.challenges[i].(progress := s.challenges[i].progress + ExtractProgress(cfg, learned, i))
    ensures var ms := Markers.Scan(text).markers;
            forall i | 0 <= i < |ms| && Text.Trim(ms[i].german) !in Keys(s.vocabulary)
                                     && Text.Trim(ms[i].german) !in s.stats.wordsLearned ::
              Text.Trim(ms[i].german) in r.State().stats.wordsLearned
    ensures var ms := Markers.Scan(text).markers;
            forall k | 0 <= k < |s.vocabulary|
                       && forall i | 0 <= i < |ms| :: Text.Trim(ms[i].german) != s.vocabulary[k].german ::
              r.State().vocabulary[k] == s.vocabulary[k]
    ensures var ms := Markers.Scan(text).markers;
            forall j | |s.vocabulary| <= j < |r.State().vocabulary| ::
              IsTrimmedGroupOne(r.State().vocabulary[j].german, ms)
    ensures UniqueKeys(s.vocabulary) ==>
              CountsSightings(s.vocabulary, Germans(Terms(Markers.Scan(text).markers)), r.State().vocabulary)
  {
    var ms := Markers.Scan(text).markers;
    var ts := Terms(ms);
    var st0 := Store(s.vocabulary, s.stats.wordsLearned, s.stats.totalPoints, 0);
    var ctx := Context(today, cfg.difficulty, cfg.topic);
    var st := SeeAll(st0, ts, ctx);
    SeeAllOnMarkers(st0, ms, ctx);
    SeeAllCountsWhenUnique(st0, ts, ctx);
    Absorb(s, st, cfg)
  }

  /** After an extraction every trimmed German term of the text has an entry,
      and every newly learned word is one of those terms. */
  lemma ExtractRecordsEveryTerm(s: Session, text: string, cfg: Settings, today: int)
    ensures var v := ExtractVocabulary(s, text, cfg, today).State();
            var ts := Terms(Markers.Scan(text).markers);
            && (forall i | 0 <= i < |ts| :: ts[i].german in Keys(v.vocabulary))
            && (forall j | |s.stats.wordsLearned| <= j < |v.stats.wordsLearned| ::
                  v.stats.wordsLearned[j] in Germans(ts))
  {
    var ts := Terms(Markers.Scan(text).markers);
    var st0 := Store(s.vocabulary, s.stats.wordsLearned, s.stats.totalPoints, 0);
    var ctx := Context(today, cfg.difficulty, cfg.topic);
    SeeAllCoversTerms(st0, ts, ctx);
    SeeAllLearnsOnlySeen(st0, ts, ctx);
  }

  /** The sighting bookkeeping of one extraction, when stored terms are
      unique: each entry's count grows by the number of the text's trimmed
      terms equal to its own (an appended one starts from 0), and an entry
      is Mastered iff it was already, or its term occurs in the text and it
      has reached three sightings. */
  lemma ExtractCountsSightings(s: Session, text: string, cfg: Settings, today: int)
    requires UniqueKeys(s.vocabulary)
    ensures var v := ExtractVocabulary(s, text, cfg, today).State();
            var gs := Germans(Terms(Markers.Scan(text).markers));
            && CountsSightings(s.vocabulary, gs, v.vocabulary)
            && MasteryFollows(s.vocabulary, gs, v.vocabulary)
  {
    var ts := Terms(Markers.Scan(text).markers);
    var st0 := Store(s.vocabulary, s.stats.wordsLearned, s.stats.totalPoints, 0);
    var ctx := Context(today, cfg.difficulty, cfg.topic);
    SeeAllCountsSightings(st0, ts, ctx);
    SeeAllMastery(st0, ts, ctx);
  }

  /** What one extraction keeps and makes: stored entries change only in
      count and mastery; each appended entry is for a term that had no
      entry, carries the day, difficulty and topic of the call and the
      translation of its term's first marker; and a word is newly learned
      only if it had no entry before. */
  lemma ExtractKeepsAndAppends(s: Session, text: string, cfg: Settings, today: int)
    ensures var v := ExtractVocabulary(s, text, cfg, today).State();
            var ts := Terms(Markers.Scan(text).markers);
            && KeepsAndAppends(s.vocabulary, v.vocabulary, Context(today, cfg.difficulty, cfg.topic))
            && FirstSightedFrom(ts, |s.vocabulary|, v.vocabulary)
            && LearnedAfterAreNew(v.stats.wordsLearned, |s.stats.wordsLearned|, s.vocabulary)
  {
    var ts := Terms(Markers.Scan(text).markers);
    var st0 := Store(s.vocabulary, s.stats.wordsLearned, s.stats.totalPoints, 0);
    var ctx := Context(today, cfg.difficulty, cfg.topic);
    SeeAllNewEntries(st0, ts, ctx);
    SeeAllFirstTranslation(st0, ts, ctx);
    SeeAllLearnsOnlyNew(st0, ts, ctx);
  }

  /** A text whose one marker names a term never seen nor learned adds
      exactly that entry (seen once, Learning, with the day, difficulty and
      topic of the call), learns the term, earns 10 points and advances the
      vocabulary challenge by one. */
  lemma ExtractOneNewTerm(s: Session, text: string, cfg: Settings, today: int, g: string, e: string)
    requires Markers.Scan(text).markers == [Markers.Marker(g, e)]
    requires Text.Trim(g) !in Keys(s.vocabulary) && Text.Trim(g) !in s.stats.wordsLearned
    requires cfg.enableChallenges && |s.challenges| > 0
    ensures var v := ExtractVocabulary(s, text, cfg, today);
            && v.Ok?
            && v.value.vocabulary
               == s.vocabulary + [Entry(Text.Trim(g), Text.Trim(e), today, cfg.difficulty, cfg.topic, 1, Learning)]
            && v.value.stats.wordsLearned == s.stats.wordsLearned + [Text.Trim(g)]
            && v.value.stats.totalPoints == s.stats.totalPoints + PointsPerWord
            && v.value.challenges[VocabularyMaster].progress == s.challenges[VocabularyMaster].progress + 1
  {
    var ts := [Term(Text.Trim(g), Text.Trim(e))];
    assert Terms(Markers.Scan(text).markers) == ts;
    var ctx := Context(today, cfg.difficulty, cfg.topic);
    var st0 := Store(s.vocabulary, s.stats.wordsLearned, s.stats.totalPoints, 0);
    var st1 := See(st0, Text.Trim(g), Text.Trim(e), ctx);
    assert SeeAll(st0, ts, ctx) == st1 by {
      assert ts[1..] == [];
    }
    ExtractAdvancesVocabularyChallenge(s, text, cfg, today);
  }

  /** The vocabulary challenge advances by exactly the number of words an
      extraction newly learned. */
  lemma ExtractAdvancesVocabularyChallenge(s: Session, text: string, cfg: Settings, today: int)
    requires cfg.enableChallenges && |s.challenges| > 0
    ensures var v := ExtractVocabulary(s, text, cfg, today).value;
            v.challenges[VocabularyMaster].progress
              == s.challenges[VocabularyMaster].progress
                 + |v.stats.wordsLearned| - |s.stats.wordsLearned|
  {
    var v := ExtractVocabulary(s, text, cfg, today).value;
    assert v.challenges[VocabularyMaster] == s.challenges[VocabularyMaster].(
      progress := s.challenges[VocabularyMaster].progress
                  + ExtractProgress(cfg, |v.stats.wordsLearned| - |s.stats.wordsLearned|, VocabularyMaster));
  }

  /** The translation button's bookkeeping: a press with non-blank input
      counts one more use of translation on the fourth challenge, if
      challenges are enabled; nothing else changes. */
  function RecordTranslation(s: Session, input: string, cfg: Settings): (r: Step<Session>)
    ensures var counted := cfg.enableChallenges && Text.Trim(input) != [];
            r.Ok? <==> !counted || |s.challenges| > TranslationExpert
    ensures r.State().(challenges := s.challenges) == s
    ensures r.Ok? && cfg.enableChallenges && Text.Trim(input) != [] ==>
              && |r.value.challenges| == |s.challenges|
              && r.value.challenges[TranslationExpert]
                 == s.challenges[TranslationExpert].(progress := s.challenges[TranslationExpert].progress + 1)
              && forall i | 0 <= i < |s.challenges| && i != TranslationExpert ::
                   r.value.challenges[i] == s.challenges[i]
    ensures !cfg.enableChallenges || Text.Trim(input) == [] ==> r == Ok(s)
  {
    if Text.Trim(input) == [] then
      Ok(s)
    else
      match BumpIf(cfg.enableChallenges, s.challenges, TranslationExpert, 1)
      case None => IndexError(s)
      case Some(cs) => Ok(s.(challenges := cs))
  }

  /** A well-formed session completes every extraction and stays
      well-formed. */
  lemma ExtractKeepsWellformed(s: Session, text: string, cfg: Settings, today: int)
    requires Wellformed(s)
    ensures ExtractVocabulary(s, text, cfg, today).Ok?
    ensures Wellformed(ExtractVocabulary(s, text, cfg, today).value)
  {
    var v := ExtractVocabulary(s, text, cfg, today).value;
    LevelForMonotone(s.stats.totalPoints, v.stats.totalPoints);
    assert NonNegativeRewards(v.challenges) by {
      forall i | 0 <= i < |v.challenges| ensures v.challenges[i].points >= 0 {
        assert v.challenges[i].points == s.challenges[i].points;
      }
    }
  }

  /** A well-formed session completes every translation press and stays
      well-formed. */
  lemma TranslateKeepsWellformed(s: Session, input: string, cfg: Settings)
    requires Wellformed(s)
    ensures RecordTranslation(s, input, cfg).Ok?
    ensures Wellformed(RecordTranslation(s, input, cfg).value)
  {
    var w := RecordTranslation(s, input, cfg).value;
    assert NonNegativeRewards(w.challenges) by {
      forall i | 0 <= i < |w.challenges| ensures w.challenges[i].points >= 0 {
        assert w.challenges[i].points == s.challenges[i].points;
      }
    }
  }

  // ---------------------------------------------------------------------------
  // Export and import
  // ---------------------------------------------------------------------------

  /** The `stats` object of an imported file: each key may be absent. */
  datatype StatsPatch = StatsPatch(
    messagesSent: Option<int>,
    wordsLearned: Option<seq<string>>,
    sessionTime: Option<int>,
    correctionsMade: Option<int>,
    pronunciationScore: Option<int>,
    grammarExercisesCompleted: Option<int>,
    dailyStreak: Option<int>,
    totalPoints: Option<int>,
    level: Option<int>,
    achievements: Option<seq<string>>,
    lastActivity: Option<int>)

  /** The `settings` object of an exported file. */
  datatype ExportedSettings = ExportedSettings(
    difficulty: string,
    topic: string,
    inputLanguage: string,
    interfaceLanguage: string)

  /** An exported or imported file: each top-level key may be absent. */
  datatype Document = Document(
    messages: Option<seq<Message>>,
    vocabulary: Option<seq<Entry>>,
    stats: Option<StatsPatch>,
    dailyChallenges: Option<seq<Challenge>>,
    settings: Option<ExportedSettings>,
    exportDate: Option<string>,
    version: Option<string>)

  /** `after` is the imported value when one is present, else `before`. */
  predicate Overwritten<T(==)>(o: Option<T>, before: T, after: T) {
    match o
    case Some(v) => after == v
    case None => after == before
  }

  function Pick<T>(o: Option<T>, before: T): T {
    match o
    case Some(v) => v
    case None => before
  }

  /** `stats.update(imported)`: each field present in the file overwrites
      the session's; each absent one keeps it. */
  function MergeStats(s: Stats, p: StatsPatch): (r: Stats)
    ensures Overwritten(p.messagesSent, s.messagesSent, r.messagesSent)
    ensures Overwritten(p.wordsLearned, s.wordsLearned, r.wordsLearned)
    ensures Overwritten(p.sessionTime, s.sessionTime, r.sessionTime)
    ensures Overwritten(p.correctionsMade, s.correctionsMade, r.correctionsMade)
    ensures Overwritten(p.pronunciationScore, s.pronunciationScore, r.pronunciationScore)
    ensures Overwritten(p.grammarExercisesCompleted, s.grammarExercisesCompleted, r.grammarExercisesCompleted)
    ensures Overwritten(p.dailyStreak, s.dailyStreak, r.dailyStreak)
    ensures Overwritten(p.totalPoints, s.totalPoints, r.totalPoints)
    ensures Overwritten(p.level, s.level, r.level)
    ensures Overwritten(p.achievements, s.achievements, r.achievements)
    ensures Overwritten(p.lastActivity, s.lastActivity, r.lastActivity)
  {
    Stats(
      Pick(p.messagesSent, s.messagesSent),
      Pick(p.wordsLearned, s.wordsLearned),
      Pick(p.sessionTime, s.sessionTime),
      Pick(p.correctionsMade, s.correctionsMade),
      Pick(p.pronunciationScore, s.pronunciationScore),
      Pick(p.grammarExercisesCompleted, s.grammarExercisesCompleted),
      Pick(p.dailyStreak, s.dailyStreak),
      Pick(p.totalPoints, s.totalPoints),
      Pick(p.level, s.level),
      Pick(p.achievements, s.achievements),
      Pick(p.lastActivity, s.lastActivity))
  }

  /** Every field of `s`, as the exported `stats` object carries it. */
  function FullPatch(s: Stats): StatsPatch {
    StatsPatch(
      Some(s.messagesSent), Some(s.wordsLearned), Some(s.sessionTime),
      Some(s.correctionsMade), Some(s.pronunciationScore),
      Some(s.grammarExercisesCompleted), Some(s.dailyStreak),
      Some(s.totalPoints), Some(s.level), Some(s.achievements),
      Some(s.lastActivity))
  }

  /** A `stats` object with no keys. */
  const EmptyPatch := StatsPatch(None, None, None, None, None, None, None, None, None, None, None)

  /** The export: every part of the session, the settings, the time of
      export (a parameter, as the clock is left out) and version "2.0". */
  function Export(s: Session, settings: ExportedSettings, exportDate: string): (d: Document)
    ensures d.version == Some("2.0")
  {
    Document(Some(s.messages), Some(s.vocabulary), Some(FullPatch(s.stats)),
             Some(s.challenges), Some(settings), Some(exportDate), Some("2.0"))
  }

  /** The import merge: messages, vocabulary and challenges present in the
      file replace the session's wholesale, stats are merged field by field,
      and every absent key leaves its part of the session as it was. The
      file's settings, date and version are not read. */
  function Import(s: Session, d: Document): (r: Session)
    ensures Overwritten(d.messages, s.messages, r.messages)
    ensures Overwritten(d.vocabulary, s.vocabulary, r.vocabulary)
    ensures Overwritten(d.dailyChallenges, s.challenges, r.challenges)
    ensures d.stats.None? ==> r.stats == s.stats
    ensures d.stats.Some? ==> r.stats == MergeStats(s.stats, d.stats.value)
  {
    Session(
      Pick(d.messages, s.messages),
      Pick(d.vocabulary, s.vocabulary),
      match d.stats
      case Some(p) => MergeStats(s.stats, p)
      case None => s.stats,
      Pick(d.dailyChallenges, s.challenges))
  }

  /** Importing an exported file into any session reproduces the exported
      session exactly. */
  lemma ExportImportRoundTrip(s: Session, t: Session, settings: ExportedSettings, date: string)
    ensures Import(t, Export(s, settings, date)) == s
  {
  }

  /** The file's settings, export date and version never affect the
      imported session. */
  lemma ImportIgnoresMetadata(s: Session, d: Document, settings: Option<ExportedSettings>,
                              exportDate: Option<string>, version: Option<string>)
    ensures Import(s, d.(settings := settings, exportDate := exportDate, version := version))
         == Import(s, d)
  {
  }

  /** A `stats` object with no keys changes nothing, and merging the same
      object twice is merging it once. */
  lemma MergeStatsLaws(s: Stats, p: StatsPatch)
    ensures MergeStats(s, EmptyPatch) == s
    ensures MergeStats(MergeStats(s, p), p) == MergeStats(s, p)
    ensures MergeStats(s, FullPatch(s)) == s
  {
  }
}

=== FILE: markers.dfy ===
/** The vocabulary marker convention: the pattern
    `\[VOCAB: ([^-]+) - ([^\]]+)\]` as `re.findall` and `re.sub` apply it
    (german_chatbot.py lines 316-317 and 347), written as an explicit
    left-to-right scanner.

    At a given position the pattern has at most one match: group 1 cannot
    hold a hyphen, so the ` - ` after it is the FIRST hyphen after the opener,
    and group 2 cannot hold a closing bracket, so it ends at the first `]`
    after that. Backtracking therefore never changes the outcome, and the
    scanner looks up those two characters directly. */
module Markers {
  import opened Base

  /** The two groups of one match, untrimmed. */
  datatype Marker = Marker(german: string, english: string)

  const Opener: string := "[VOCAB: "
  const Separator: string := " - "

  /** The number of characters a match spans. */
  function Width(m: Marker): nat {
    |Opener| + |m.german| + |Separator| + |m.english| + 1
  }

  /** The pattern read declaratively: `s` is a whole match whose groups are
      `g` and `e`. Group 1 is one or more characters other than `-` (it may
      hold brackets and line breaks); group 2 is one or more characters other
      than `]`. */
  predicate IsMarker(s: string, g: string, e: string) {
    && s == Opener + g + Separator + e + "]"
    && |g| > 0 && '-' !in g
    && |e| > 0 && ']' !in e
  }

  /** The first index at or after `from` holding `c`. */
  function FirstIndex(t: string, c: char, from: nat): (r: Option<nat>)
    requires from <= |t|
    ensures r.Some? ==> from <= r.value < |t| && t[r.value] == c
    ensures r.Some? ==> forall j | from <= j < r.value :: t[j] != c
    ensures r.None? ==> forall j | from <= j < |t| :: t[j] != c
    decreases |t| - from
  {
    if from == |t| then None
    else if t[from] == c then Some(from)
    else FirstIndex(t, c, from + 1)
  }

  /** The match of the pattern at the very start of `t`, if there is one. */
  function MatchPrefix(t: string): (r: Option<Marker>)
    ensures r.Some? ==> Width(r.value) <= |t|
    ensures r.Some? ==> IsMarker(t[..Width(r.value)], r.value.german, r.value.english)
  {
    if |t| < 8 || t[..8] != Opener then
      None
    else
      match FirstIndex(t, '-', 8)
      case None => None
      case Some(d) =>
        if d < 10 || t[d - 1] != ' ' || d + 1 >= |t| || t[d + 1] != ' ' then
          None
        else
          match FirstIndex(t, ']', d + 2)
          case None => None
          case Some(c) =>
            if c == d + 2 then
              None
            else
              var m := Marker(t[8..d - 1], t[d + 2..c]);
              assert t[..Width(m)] == Opener + m.german + Separator + m.english + "]";
              Some(m)
  }

  /** The first `c` at or after `from` is at `k` when `k` holds one and
      nothing between does. */
  lemma FirstIndexIs(t: string, c: char, from: nat, k: nat)
    requires from <= k < |t| && t[k] == c
    requires forall j | from <= j < k :: t[j] != c
    ensures FirstIndex(t, c, from) == Some(k)
  {
  }

  /** The scanner finds every match that starts at the front of `t`: with
      `MatchPrefix`'s own contract, `MatchPrefix(t) == Some(Marker(g, e))`
      holds exactly when some prefix of `t` is a match with groups `g`, `e`. */
  lemma MatchPrefixComplete(t: string, k: nat, g: string, e: string)
    requires k <= |t| && IsMarker(t[..k], g, e)
    ensures MatchPrefix(t) == Some(Marker(g, e))
  {
    var s := t[..k];
    var d := 9 + |g|;
    var c := d + 2 + |e|;
    assert k == c + 1;
    assert t[..8] == s[..8] == Opener;
    assert forall j | 8 <= j < d - 1 :: t[j] == s[j] == g[j - 8];
    assert t[d - 1] == s[d - 1] == ' ';
    assert t[d] == s[d] == '-';
    assert t[d + 1] == s[d + 1] == ' ';
    assert forall j | d + 2 <= j < c :: t[j] == s[j] == e[j - d - 2];
    assert t[c] == s[c] == ']';
    FirstIndexIs(t, '-', 8, d);
    FirstIndexIs(t, ']', d + 2, c);
    assert t[8..d - 1] == g;
    assert t[d + 2..c] == e;
  }

  /** What one pass of the scanner produces: the display text (every match
      replaced by its untrimmed group 1) and the matches in order. */
  datatype Scanned = Scanned(display: string, markers: seq<Marker>)

  /** The characters a sequence of matches removes from the text. */
  function Removed(ms: seq<Marker>): nat
    decreases |ms|
  {
    if |ms| == 0 then 0 else Width(ms[0]) - |ms[0].german| + Removed(ms[1..])
  }

  /** `re.findall` and `re.sub(pattern, r'\1', t)` together: left to right,
      non-overlapping, resuming one character later where no match starts.
      Every match drops at least its opener, separator, one character of
      group 2 and its closing bracket, 13 characters in all. */
  function Scan(t: string): (r: Scanned)
    ensures |r.display| + 13 * |r.markers| <= |t|
    decreases |t|
  {
    if |t| == 0 then
      Scanned([], [])
    else
      match MatchPrefix(t)
      case Some(m) =>
        var rest := Scan(t[Width(m)..]);
        Scanned(m.german + rest.display, [m] + rest.markers)
      case None =>
        var rest := Scan(t[1..]);
        Scanned([t[0]] + rest.display, rest.markers)
  }

  /** Every reported match is a match of the pattern: both groups are
      non-empty, group 1 has no hyphen and group 2 no closing bracket. */
  lemma {:induction false} ScanGroupsWellFormed(t: string)
    ensures forall i | 0 <= i < |Scan(t).markers| ::
              && |Scan(t).markers[i].german| > 0 && '-' !in Scan(t).markers[i].german
              && |Scan(t).markers[i].english| > 0 && ']' !in Scan(t).markers[i].english
    decreases |t|
  {
    if |t| > 0 {
      match MatchPrefix(t)
      case Some(m) => ScanGroupsWellFormed(t[Width(m)..]);
      case None => ScanGroupsWellFormed(t[1..]);
    }
  }

  /** Each match shrinks the text by the characters it does not keep: the
      opener, the separator, group 2 and the closing bracket. */
  lemma {:induction false} ScanLength(t: string)
    ensures |Scan(t).display| + Removed(Scan(t).markers) == |t|
    decreases |t|
  {
    if |t| > 0 {
      match MatchPrefix(t)
      case Some(m) =>
        ScanLength(t[Width(m)..]);
        assert ([m] + Scan(t[Width(m)..]).markers)[1..] == Scan(t[Width(m)..]).markers;
      case None => ScanLength(t[1..]);
    }
  }

  /** The text shown is the text received exactly when no match was found. */
  lemma ScanUnchangedIffNoMatch(t: string)
    ensures Scan(t).display == t <==> Scan(t).markers == []
  {
    ScanLength(t);
    var r := Scan(t);
    if r.markers != [] {
      assert Removed(r.markers) >= 12;
    }
  }

  /** No prefix of `t` is a match, so the scanner finds none at its front. */
  lemma NoMarkerNoMatch(t: string)
    requires forall k, g, e | 0 <= k <= |t| :: !IsMarker(t[..k], g, e)
    ensures MatchPrefix(t) == None
  {
  }

  /** Text in which no substring is a match passes through unchanged and
      yields no match. */
  lemma {:induction false} ScanMarkerFree(t: string)
    requires forall i, k, g, e | 0 <= i <= k <= |t| :: !IsMarker(t[i..k], g, e)
    ensures Scan(t) == Scanned(t, [])
    decreases |t|
  {
    if |t| > 0 {
      forall k, g, e | 0 <= k <= |t| ensures !IsMarker(t[..k], g, e) {
        assert t[0..k] == t[..k];
      }
      NoMarkerNoMatch(t);
      forall i, k, g, e | 0 <= i <= k <= |t[1..]|
        ensures !IsMarker(t[1..][i..k], g, e)
      {
        assert t[1..][i..k] == t[i + 1..k + 1];
      }
      ScanMarkerFree(t[1..]);
    }
  }

  /** Where a match of the pattern starts, the scanner reports it with its
      groups, shows group 1 in its place and resumes right after it: the
      leftmost, non-overlapping reading of `re.findall` and `re.sub`. */
  lemma ScanAtMatch(t: string, k: nat, g: string, e: string)
    requires k <= |t| && IsMarker(t[..k], g, e)
    ensures Scan(t) == Scanned(g + Scan(t[k..]).display, [Marker(g, e)] + Scan(t[k..]).markers)
  {
    MatchPrefixComplete(t, k, g, e);
  }

  /** Where no match starts, the scanner copies one character and resumes at
      the very next one, so a failed `[` never hides a match right after it. */
  lemma ScanAtNonMatch(t: string)
    requires |t| > 0
    requires forall k, g, e | 0 <= k <= |t| :: !IsMarker(t[..k], g, e)
    ensures Scan(t) == Scanned([t[0]] + Scan(t[1..]).display, Scan(t[1..]).markers)
  {
    NoMarkerNoMatch(t);
  }

  /** No match starts at a `[` directly followed by another `[`. */
  lemma NoMatchBeforeSecondBracket(t: string)
    requires |t| >= 2 && t[1] == '['
    ensures forall k, g, e | 0 <= k <= |t| :: !IsMarker(t[..k], g, e)
  {
    forall k, g, e | 0 <= k <= |t| ensures !IsMarker(t[..k], g, e) {
      if k >= 2 {
        assert t[..k][1] == '[';
      }
    }
  }

  /** A lone `[` before a marker does not hide it: the scan fails at the
      `[`, resumes one character later and finds the marker there. */
  lemma FailedOpenerResumes(t: string, g: string, e: string, rest: string)
    requires IsMarker(Opener + g + Separator + e + "]", g, e)
    requires |t| > 0 && t[0] == '[' && t[1..] == Opener + g + Separator + e + "]" + rest
    ensures Scan(t).display == "[" + g + Scan(rest).display
    ensures Scan(t).markers == [Marker(g, e)] + Scan(rest).markers
  {
    var mk := Opener + g + Separator + e + "]";
    var u := t[1..];
    assert u[..|mk|] == mk && u[|mk|..] == rest;
    ScanAtMatch(u, |mk|, g, e);
    NoMatchBeforeSecondBracket(t);
    ScanAtNonMatch(t);
    var x := Scan(rest).display;
    assert [t[0]] + (g + x) == "[" + g + x;
  }

  /** A first character other than `[` cannot start a match, so it is
      copied to the display and scanning resumes after it. */
  lemma ScanPlainChar(t: string)
    requires |t| > 0 && t[0] != '['
    ensures Scan(t) == Scanned([t[0]] + Scan(t[1..]).display, Scan(t[1..]).markers)
  {
    assert MatchPrefix(t) == None by {
      if |t| >= 8 { assert t[..8][0] != Opener[0]; }
    }
  }

  /** Text without an opening bracket is copied to the display unchanged
      and never starts a match. */
  lemma {:induction false} ScanPlainPrefix(p: string, t: string)
    requires '[' !in p
    ensures Scan(p + t) == Scanned(p + Scan(t).display, Scan(t).markers)
    decreases |p|
  {
    if |p| > 0 {
      var rest := Scan(p[1..] + t);
      assert Scan(p + t) == Scanned([p[0]] + rest.display, rest.markers) by {
        var pt := p + t;
        assert pt[0] == p[0];
        ScanPlainChar(pt);
        assert pt[1..] == p[1..] + t;
      }
      ScanPlainPrefix(p[1..], t);
      HeadTailConcat(p, Scan(t).display);
    } else {
      assert p + t == t;
    }
  }

  /** A well-formed marker after plain text: the display keeps the plain
      text, shows group 1 in place of the marker, and goes on with the rest;
      the marker is the first match reported. */
  lemma ScanMarkerAfterPlain(p: string, g: string, e: string, rest: string)
    requires '[' !in p
    requires IsMarker(Opener + g + Separator + e + "]", g, e)
    ensures var r := Scan(p + (Opener + g + Separator + e + "]") + rest);
            && r.display == p + g + Scan(rest).display
            && r.markers == [Marker(g, e)] + Scan(rest).markers
  {
    var mk := Opener + g + Separator + e + "]";
    var t := mk + rest;
    var m := Marker(g, e);
    assert t[..|mk|] == mk;
    MatchPrefixComplete(t, |mk|, g, e);
    assert t[Width(m)..] == rest;
    assert Scan(t) == Scanned(g + Scan(rest).display, [m] + Scan(rest).markers);
    ScanPlainPrefix(p, t);
    assert p + mk + rest == p + t;
    assert p + (g + Scan(rest).display) == p + g + Scan(rest).display;
  }

  /** A text holding exactly one well-formed marker amid plain text shows
      the plain text around group 1 and yields that one match. */
  lemma ScanSingleMarker(p: string, g: string, e: string, q: string)
    requires '[' !in p && '[' !in q
    requires IsMarker(Opener + g + Separator + e + "]", g, e)
    ensures Scan(p + (Opener + g + Separator + e + "]") + q) == Scanned(p + g + q, [Marker(g, e)])
  {
    ScanMarkerAfterPlain(p, g, e, q);
    ScanPlainPrefix(q, "");
    assert q + "" == q;
  }

  /** The worked example: `Hallo [VOCAB: Hund - dog] heute` shows as
      `Hallo Hund heute` and yields the single match (`Hund`, `dog`). The
      text is written in three pieces only to keep the verifier from
      evaluating the scanner on one long literal. */
  lemma ScanExample()
    ensures Scan("Hallo " + "[VOCAB: Hund - dog]" + " heute")
         == Scanned("Hallo " + "Hund" + " heute", [Marker("Hund", "dog")])
  {
    assert "[VOCAB: Hund - dog]" == Opener + "Hund" + Separator + "dog" + "]";
    ScanSingleMarker("Hallo ", "Hund", "dog", " heute");
  }

  /** Group 1 may itself hold the start of a marker: here it is
      `[VOCAB: a`, and the display text of the pass is `[VOCAB: a - c]`.
      As in `ScanExample`, the texts are written as a plain prefix, the
      marker and a plain suffix (the prefix empty), matching the shape
      `ScanSingleMarker` states its result in, so that the verifier works
      on those pieces instead of evaluating the scanner on one literal. */
  lemma NestedOpenerInGroupOne()
    ensures Scan("" + "[VOCAB: [VOCAB: a - b]" + " - c]")
         == Scanned("" + "[VOCAB: a" + " - c]", [Marker("[VOCAB: a", "b")])
  {
    assert "[VOCAB: [VOCAB: a - b]" == Opener + "[VOCAB: a" + Separator + "b" + "]";
    ScanSingleMarker("", "[VOCAB: a", "b", " - c]");
  }

  /** The display text of the previous lemma holds a match of its own, so a
      second pass over a pass's display text can report more: rewriting is
      not idempotent. The empty pieces play the same part as in
      `NestedOpenerInGroupOne`. */
  lemma RewriteNotIdempotent()
    ensures "" + "[VOCAB: a" + " - c]" == "" + "[VOCAB: a - c]" + ""
    ensures Scan("" + "[VOCAB: a - c]" + "") == Scanned("" + "a" + "", [Marker("a", "c")])
  {
    assert "[VOCAB: a - c]" == Opener + "a" + Separator + "c" + "]";
    ScanSingleMarker("", "a", "c", "");
  }
}

=== FILE: progress.dfy ===
/** The progress tracker: the session's `stats` record, the daily streak, the
    level and the achievement list (german_chatbot.py lines 82-125, 415-427). */
module Progress {
  import opened Base
  import Text

  /** The `stats` dictionary. Every counter is an unbounded `int` because an
      imported file may set any value; `lastActivity` is a day number in
      place of the `%Y-%m-%d` string. `sessionTime` and `pronunciationScore`
      are never updated by the program but are carried through imports. */
  datatype Stats = Stats(
    messagesSent: int,
    wordsLearned: seq<string>,
    sessionTime: int,
    correctionsMade: int,
    pronunciationScore: int,
    grammarExercisesCompleted: int,
    dailyStreak: int,
    totalPoints: int,
    level: int,
    achievements: seq<string>,
    lastActivity: int)

  /** The first `stats` of a session, created on day `today`: nothing
      counted, learned or unlocked yet, the level the (zero) points give,
      no achievement due, and a refresh on the same day changes nothing. */
  function InitialStats(today: int): (r: Stats)
    ensures r.messagesSent == 0 && r.totalPoints == 0 && r.dailyStreak == 0
    ensures r.correctionsMade == 0 && r.grammarExercisesCompleted == 0
    ensures r.sessionTime == 0 && r.pronunciationScore == 0
    ensures r.wordsLearned == [] && r.achievements == []
    ensures r.level == LevelFor(r.totalPoints)
    ensures forall x :: !ThresholdMet(r, x)
    ensures UpdateDailyStreak(r, today) == r
  {
    Stats(
      messagesSent := 0,
      wordsLearned := [],
      sessionTime := 0,
      correctionsMade := 0,
      pronunciationScore := 0,
      grammarExercisesCompleted := 0,
      dailyStreak := 0,
      totalPoints := 0,
      level := 1,
      achievements := [],
      lastActivity := today)
  }

  // ---------------------------------------------------------------------------
  // Daily streak
  // ---------------------------------------------------------------------------

  /** `update_daily_streak` on day `today`: a second visit on the same day
      changes nothing, a visit the day after the last one extends the streak,
      any other visit starts a new streak of one. */
  function UpdateDailyStreak(s: Stats, today: int): (r: Stats)
    ensures r.lastActivity == today
    ensures s.lastActivity == today ==> r == s
    ensures s.lastActivity == today - 1 ==> r.dailyStreak == s.dailyStreak + 1
    ensures s.lastActivity != today && s.lastActivity != today - 1 ==> r.dailyStreak == 1
    ensures r.(dailyStreak := s.dailyStreak, lastActivity := s.lastActivity) == s
  {
    if s.lastActivity != today then
      var streak := if s.lastActivity == today - 1 then s.dailyStreak + 1 else 1;
      s.(dailyStreak := streak, lastActivity := today)
    else
      s
  }

  /** Visits on each day of `days`, in order. */
  function VisitDays(s: Stats, days: seq<int>): Stats
    decreases |days|
  {
    if |days| == 0 then s else VisitDays(UpdateDailyStreak(s, days[0]), days[1..])
  }

  /** `days` is a run of consecutive calendar days starting the day after `last`. */
  predicate ConsecutiveAfter(last: int, days: seq<int>) {
    forall i | 0 <= i < |days| :: days[i] == last + 1 + i
  }

  /** Visiting on `n` consecutive days, each the day after the previous visit,
      extends the streak by exactly `n`. */
  lemma {:induction false} ConsecutiveVisitsExtendStreak(s: Stats, days: seq<int>)
    requires ConsecutiveAfter(s.lastActivity, days)
    ensures VisitDays(s, days).dailyStreak == s.dailyStreak + |days|
    ensures |days| > 0 ==> VisitDays(s, days).lastActivity == days[|days| - 1]
    decreases |days|
  {
    if |days| > 0 {
      var s' := UpdateDailyStreak(s, days[0]);
      assert ConsecutiveAfter(s'.lastActivity, days[1..]);
      ConsecutiveVisitsExtendStreak(s', days[1..]);
    }
  }

  /** A fresh session's first refresh happens on its creation day and leaves
      the streak at 0, so `n` further consecutive days give a streak of `n`,
      one less than the number of days visited. */
  lemma FreshStreakLagsOneDay(today: int, n: nat)
    ensures UpdateDailyStreak(InitialStats(today), today).dailyStreak == 0
    ensures VisitDays(UpdateDailyStreak(InitialStats(today), today),
                      seq(n, i => today + 1 + i)).dailyStreak == n
  {
    var s := UpdateDailyStreak(InitialStats(today), today);
    ConsecutiveVisitsExtendStreak(s, seq(n, i => today + 1 + i));
  }

  // ---------------------------------------------------------------------------
  // Achievements
  // ---------------------------------------------------------------------------

  /** `add_achievement`: append `name` unless it is already unlocked. The
      notification shown on a new unlock is left out. */
  function AddAchievement(a: seq<string>, name: string): (r: seq<string>)
    ensures name in r
    ensures forall x :: x in r <==> x in a || x == name
    ensures IsPrefix(a, r)
    ensures name in a <==> r == a
    ensures NoDup(a) ==> NoDup(r)
  {
    if name in a then a else a + [name]
  }

  /** The threshold achievements and the stat each one waits for. */
  predicate ThresholdMet(s: Stats, name: string) {
    || (name == "Chatterbox" && s.messagesSent >= 10)
    || (name == "Vocabulary Collector" && |s.wordsLearned| >= 50)
    || (name == "Week Warrior" && s.dailyStreak >= 7)
    || (name == "Grammar Master" && s.grammarExercisesCompleted >= 10)
    || (name == "Point Collector" && s.totalPoints >= 500)
  }

  /** Thresholds wait on counters only, not on achievements or the level. */
  lemma ThresholdsIgnoreRewards(s: Stats, t: Stats)
    requires t == s.(achievements := t.achievements, level := t.level)
    ensures forall x :: ThresholdMet(t, x) == ThresholdMet(s, x)
  {
  }

  /** `add_achievement(name)` guarded by `if cond`. */
  function AddIf(a: seq<string>, cond: bool, name: string): (r: seq<string>)
    ensures forall x :: x in r <==> x in a || (cond && x == name)
    ensures IsPrefix(a, r)
    ensures NoDup(a) ==> NoDup(r)
  {
    if cond then AddAchievement(a, name) else a
  }

  /** `check_achievements`: every threshold achievement whose threshold is met
      is unlocked; nothing is removed or reordered and nothing else changes. */
  function CheckAchievements(s: Stats): (r: Stats)
    ensures r == s.(achievements := r.achievements)
    ensures IsPrefix(s.achievements, r.achievements)
    ensures forall x :: x in r.achievements <==> x in s.achievements || ThresholdMet(s, x)
    ensures NoDup(s.achievements) ==> NoDup(r.achievements)
  {
    var a1 := AddIf(s.achievements, s.messagesSent >= 10, "Chatterbox");
    var a2 := AddIf(a1, |s.wordsLearned| >= 50, "Vocabulary Collector");
    var a3 := AddIf(a2, s.dailyStreak >= 7, "Week Warrior");
    var a4 := AddIf(a3, s.grammarExercisesCompleted >= 10, "Grammar Master");
    var a5 := AddIf(a4, s.totalPoints >= 500, "Point Collector");
    PrefixTransitive(s.achievements, a1, a2);
    PrefixTransitive(s.achievements, a2, a3);
    PrefixTransitive(s.achievements, a3, a4);
    PrefixTransitive(s.achievements, a4, a5);
    s.(achievements := a5)
  }

  /** A second check on unchanged stats unlocks nothing more. */
  lemma CheckAchievementsIdempotent(s: Stats)
    ensures CheckAchievements(CheckAchievements(s)) == CheckAchievements(s)
  {
    var r := CheckAchievements(s);
    var r2 := CheckAchievements(r);
    assert forall x :: x in r2.achievements ==> x in r.achievements;
    assert |r2.achievements| == |r.achievements|;
  }

  // ---------------------------------------------------------------------------
  // Level
  // ---------------------------------------------------------------------------

  /** The level `total_points` alone would give: one level per 100 points,
      capped at 10. Python's `//` floors, which is Dafny's `/` for the
      positive divisor 100. */
  function LevelFor(points: int): (l: int)
    ensures l <= 10
    ensures points >= 0 ==> l >= 1
    ensures 0 <= points < 900 ==> l * 100 <= points + 100 < (l + 1) * 100
    ensures points >= 900 ==> l == 10
  {
    Min(10, points / 100 + 1)
  }

  /** More points never mean a lower level. */
  lemma LevelForMonotone(p: int, q: int)
    requires p <= q
    ensures LevelFor(p) <= LevelFor(q)
  {
  }

  /** The achievement that marks reaching level `n`. */
  function LevelName(n: int): string {
    "Level " + Text.IntToDecimal(n) + " Reached!"
  }

  /** Different levels have different achievement names. */
  lemma LevelNameInjective(m: int, n: int)
    requires LevelName(m) == LevelName(n)
    ensures m == n
  {
    var a, b := Text.IntToDecimal(m), Text.IntToDecimal(n);
    assert |a| == |b|;
    assert a == LevelName(m)[6..6 + |a|];
    assert b == LevelName(n)[6..6 + |b|];
    Text.IntToDecimalInjective(m, n);
  }

  /** `update_level`: the level becomes the larger of the stored level and the
      level the points give, so it never falls; when it rises, the single
      achievement for the new level is unlocked and no other. */
  function UpdateLevel(s: Stats): (r: Stats)
    ensures r.level == Max(s.level, LevelFor(s.totalPoints))
    ensures r.level >= s.level
    ensures 1 <= s.level <= 10 ==> 1 <= r.level <= 10
    ensures r.level > s.level ==> r.achievements == AddAchievement(s.achievements, LevelName(r.level))
    ensures r.level == s.level ==> r == s
    ensures r == s.(level := r.level, achievements := r.achievements)
    ensures IsPrefix(s.achievements, r.achievements)
    ensures NoDup(s.achievements) ==> NoDup(r.achievements)
  {
    var newLevel := LevelFor(s.totalPoints);
    if newLevel > s.level then
      s.(level := newLevel, achievements := AddAchievement(s.achievements, LevelName(newLevel)))
    else
      s
  }

  /** A jump over several levels at once unlocks only the final level's
      achievement: every other level's achievement is present afterwards
      exactly when it was present before. */
  lemma LevelJumpUnlocksOnlyFinal(s: Stats, k: int)
    requires k != UpdateLevel(s).level
    ensures LevelName(k) in UpdateLevel(s).achievements <==> LevelName(k) in s.achievements
  {
    var r := UpdateLevel(s);
    if r.level > s.level && LevelName(k) == LevelName(r.level) {
      LevelNameInjective(k, r.level);
    }
  }

  /** Once the level agrees with the points, it keeps agreeing as long as the
      points only grow: each update brings it to the level the points give. */
  lemma {:induction false} LevelTracksGrowingPoints(s: Stats, p: int)
    requires s.level <= LevelFor(s.totalPoints)
    requires p >= s.totalPoints
    ensures UpdateLevel(s.(totalPoints := p)).level == LevelFor(p)
  {
    LevelForMonotone(s.totalPoints, p);
  }
}

=== FILE: text.dfy ===
/** The three pieces of Python string behaviour the bookkeeping depends on:
    `str.strip()`, `str.lower()` followed by the `in` substring test, and
    `str(n)` inside an f-string. */
module Text {

  /** Python's `str.isspace()` for one character: the characters whose
      bidirectional type is WS, B or S, or whose category is Zs. */
  predicate IsSpace(c: char) {
    || ('\t' <= c <= '\r')
    || ('\U{1C}' <= c <= '\U{1F}')
    || c == ' '
    || c == '\U{85}'
    || c == '\U{A0}'
    || c == '\U{1680}'
    || ('\U{2000}' <= c <= '\U{200A}')
    || c == '\U{2028}'
    || c == '\U{2029}'
    || c == '\U{202F}'
    || c == '\U{205F}'
    || c == '\U{3000}'
  }

  /** `s` with its leading whitespace removed. */
  function TrimStart(s: string): (r: string)
    ensures |r| <= |s| && r == s[|s| - |r|..]
    ensures forall i | 0 <= i < |s| - |r| :: IsSpace(s[i])
    ensures r == [] || !IsSpace(r[0])
    decreases |s|
  {
    if |s| > 0 && IsSpace(s[0]) then TrimStart(s[1..]) else s
  }

  /** `s` with its trailing whitespace removed. */
  function TrimEnd(s: string): (r: string)
    ensures |r| <= |s| && r == s[..|r|]
    ensures forall i | |r| <= i < |s| :: IsSpace(s[i])
    ensures r == [] || !IsSpace(r[|r| - 1])
    decreases |s|
  {
    if |s| > 0 && IsSpace(s[|s| - 1]) then TrimEnd(s[..|s| - 1]) else s
  }

  /** `r` is the slice of `s` starting at `a`, and everything of `s` outside
      that slice is whitespace. */
  predicate IsSliceAmidSpaces(s: string, r: string, a: int) {
    && 0 <= a <= |s| - |r|
    && s[a..a + |r|] == r
    && (forall i | 0 <= i < a :: IsSpace(s[i]))
    && (forall i | a + |r| <= i < |s| :: IsSpace(s[i]))
  }

  /** Python's `s.strip()`: the slice of `s` left once whitespace is cut from
      both ends. The contract pins the result down: a slice of `s` with only
      whitespace outside it and none at either of its own ends. */
  function Trim(s: string): (r: string)
    ensures IsSliceAmidSpaces(s, r, |s| - |TrimStart(s)|)
    ensures r == [] || (!IsSpace(r[0]) && !IsSpace(r[|r| - 1]))
  {
    TrimIsSlice(s);
    TrimEndsClean(s);
    TrimEnd(TrimStart(s))
  }

  /** A prefix `r` of a suffix `u` of `s`, with whitespace before `u` and
      after `r`, is a slice of `s` amid whitespace. */
  lemma PrefixOfSuffix(s: string, u: string, r: string)
    requires |u| <= |s| && u == s[|s| - |u|..]
    requires |r| <= |u| && r == u[..|r|]
    requires forall i | 0 <= i < |s| - |u| :: IsSpace(s[i])
    requires forall i | |r| <= i < |u| :: IsSpace(u[i])
    ensures IsSliceAmidSpaces(s, r, |s| - |u|)
  {
    var a := |s| - |u|;
    assert s[a..a + |r|] == u[..|r|];
    forall i | a + |r| <= i < |s| ensures IsSpace(s[i]) {
      assert s[i] == u[i - a];
    }
  }

  lemma TrimIsSlice(s: string)
    ensures IsSliceAmidSpaces(s, TrimEnd(TrimStart(s)), |s| - |TrimStart(s)|)
  {
    PrefixOfSuffix(s, TrimStart(s), TrimEnd(TrimStart(s)));
  }

  lemma TrimEndsClean(s: string)
    ensures var r := TrimEnd(TrimStart(s));
            r == [] || (!IsSpace(r[0]) && !IsSpace(r[|r| - 1]))
  {
    var u := TrimStart(s);
    var r := TrimEnd(u);
    if r != [] {
      assert r[0] == u[0];
    }
  }

  /** Python's `str.lower()` for one character, restricted to the letters a
      German reply carries: ASCII capitals, the Latin-1 capitals (which hold
      Ä, Ö and Ü) and the capital sharp s. */
  function LowerChar(c: char): char {
    if 'A' <= c <= 'Z' || ('\U{C0}' <= c <= '\U{DE}' && c != '\U{D7}') then
      (c as int + 32) as char
    else if c == '\U{1E9E}' then
      '\U{DF}'
    else
      c
  }

  /** Python's `s.lower()` (see `LowerChar` for which letters are folded). */
  function ToLower(s: string): (r: string)
    ensures |r| == |s|
    ensures forall i | 0 <= i < |r| :: !('A' <= r[i] <= 'Z')
    ensures forall i | 0 <= i < |s| && 'a' <= s[i] <= 'z' :: r[i] == s[i]
    ensures forall i | 0 <= i < |s| && 'A' <= s[i] <= 'Z' :: r[i] as int == s[i] as int + 32
    ensures forall i | 0 <= i < |s| && '\U{C0}' <= s[i] <= '\U{DE}' && s[i] != '\U{D7}' ::
              r[i] as int == s[i] as int + 32
    ensures forall i | 0 <= i < |s| && s[i] == '\U{1E9E}' :: r[i] == '\U{DF}'
    ensures forall i | 0 <= i < |s| && !('A' <= s[i] <= 'Z') && !('\U{C0}' <= s[i] <= '\U{DE}')
                                    && s[i] != '\U{1E9E}' ::
              r[i] == s[i]
    ensures forall i | 0 <= i < |s| && s[i] == '\U{D7}' :: r[i] == '\U{D7}'
  {
    seq(|s|, i requires 0 <= i < |s| => LowerChar(s[i]))
  }

  /** `w` occurs in `s` starting at index `i`. */
  predicate OccursAt(s: string, w: string, i: int) {
    0 <= i && i + |w| <= |s| && s[i..i + |w|] == w
  }

  /** Python's `w in s` on strings. */
  function Contains(s: string, w: string): (b: bool)
    ensures b <==> exists i :: OccursAt(s, w, i)
    decreases |s|
  {
    if |s| < |w| then
      false
    else if s[..|w|] == w then
      assert OccursAt(s, w, 0);
      true
    else
      var b := Contains(s[1..], w);
      assert forall i :: OccursAt(s[1..], w, i) <==> OccursAt(s, w, i + 1);
      assert !OccursAt(s, w, 0);
      assert forall i :: OccursAt(s, w, i) ==> i == 0 || OccursAt(s[1..], w, i - 1);
      b
  }

  /** The decimal digit for `d`. */
  function DigitChar(d: int): char
    requires 0 <= d < 10
  {
    (48 + d) as char
  }

  /** `str(n)` for a natural number: decimal digits, no leading zero. */
  function NatToDecimal(n: nat): (r: string)
    ensures |r| >= 1
    ensures forall i | 0 <= i < |r| :: '0' <= r[i] <= '9'
    ensures n > 0 ==> r[0] != '0'
    ensures n < 10 <==> |r| == 1
  {
    if n < 10 then [DigitChar(n)] else NatToDecimal(n / 10) + [DigitChar(n % 10)]
  }

  /** `str(n)` for an integer: a minus sign before the digits of `-n`. */
  function IntToDecimal(n: int): string {
    if n < 0 then "-" + NatToDecimal(-n) else NatToDecimal(n)
  }

  /** Distinct naturals print differently. */
  lemma {:induction false} NatToDecimalInjective(a: nat, b: nat)
    requires NatToDecimal(a) == NatToDecimal(b)
    ensures a == b
  {
    var ra, rb := NatToDecimal(a), NatToDecimal(b);
    if a < 10 || b < 10 {
      assert a < 10 && b < 10;
      assert ra[0] == rb[0];
    } else {
      assert ra[..|ra| - 1] == NatToDecimal(a / 10);
      assert rb[..|rb| - 1] == NatToDecimal(b / 10);
      NatToDecimalInjective(a / 10, b / 10);
      assert ra[|ra| - 1] == rb[|rb| - 1];
      assert a % 10 == b % 10;
    }
  }

  /** Distinct integers print differently. */
  lemma IntToDecimalInjective(a: int, b: int)
    requires IntToDecimal(a) == IntToDecimal(b)
    ensures a == b
  {
    if a < 0 && b < 0 {
      assert IntToDecimal(a)[1..] == NatToDecimal(-a);
      assert IntToDecimal(b)[1..] == NatToDecimal(-b);
      NatToDecimalInjective(-a, -b);
    } else if 0 <= a && 0 <= b {
      NatToDecimalInjective(a, b);
    }
  }
}

=== FILE: vocabulary.dfy ===
/** The vocabulary store update made for each marker found in a reply
    (german_chatbot.py lines 320-341): look the trimmed German term up, count
    one more sighting of a known term, or add a new entry and award points
    for a term never learned before. */
module Vocabulary {
  import opened Base
  import Text
  import Markers

  datatype Mastery = Learning | Mastered

  /** One entry of the `vocabulary` list. `dateLearned` is a day number. */
  datatype Entry = Entry(
    german: string,
    english: string,
    dateLearned: int,
    difficulty: string,
    topic: string,
    timesSeen: int,
    mastery: Mastery)

  /** What a new entry records besides the two terms: the day, and the
      difficulty and topic selected in the sidebar. */
  datatype Context = Context(today: int, difficulty: string, topic: string)

  /** The part of the session one extraction reads and writes: the
      vocabulary list, `words_learned`, `total_points`, and the number of
      terms learned so far in this extraction. */
  datatype Store = Store(entries: seq<Entry>, learned: seq<string>, points: int, newWords: nat)

  /** Points awarded for each term learned. */
  const PointsPerWord := 10

  /** The German terms of the entries, in order. */
  function Keys(vs: seq<Entry>): (ks: seq<string>)
    ensures |ks| == |vs|
    ensures forall i | 0 <= i < |vs| :: ks[i] == vs[i].german
  {
    seq(|vs|, i requires 0 <= i < |vs| => vs[i].german)
  }

  /** No German term has two entries. */
  predicate UniqueKeys(vs: seq<Entry>) {
    forall i, j | 0 <= i < j < |vs| :: vs[i].german != vs[j].german
  }

  /** The index of the first entry for `g`: the `next(...)` lookup. */
  function FindEntry(vs: seq<Entry>, g: string): (r: Option<nat>)
    ensures r.None? <==> g !in Keys(vs)
    ensures r.Some? ==> r.value < |vs| && vs[r.value].german == g
    ensures r.Some? ==> forall j | 0 <= j < r.value :: vs[j].german != g
    decreases |vs|
  {
    if |vs| == 0 then None
    else if vs[0].german == g then Some(0)
    else match FindEntry(vs[1..], g)
      case None => None
      case Some(k) => Some(k + 1)
  }

  /** The first entry for a known term. */
  function EntryFor(vs: seq<Entry>, g: string): Entry
    requires g in Keys(vs)
  {
    vs[FindEntry(vs, g).value]
  }

  /** The entry made for a term seen for the first time. */
  function NewEntry(g: string, e: string, ctx: Context): Entry {
    Entry(g, e, ctx.today, ctx.difficulty, ctx.topic, 1, Learning)
  }

  /** One more sighting of a known term: the count goes up by one, and from
      three sightings on the term is Mastered; an entry already Mastered
      stays so. */
  function Sighted(v: Entry): (r: Entry)
    ensures r.timesSeen == v.timesSeen + 1
    ensures r.mastery == Mastered <==> v.mastery == Mastered || r.timesSeen >= 3
    ensures r.(timesSeen := v.timesSeen, mastery := v.mastery) == v
  {
    v.(timesSeen := v.timesSeen + 1,
       mastery := if v.timesSeen + 1 >= 3 then Mastered else v.mastery)
  }

  /** `after` keeps every entry of `before` in place under the same term and
      translation, seen at least as often, and never back from Mastered. */
  predicate Grows(before: seq<Entry>, after: seq<Entry>) {
    && |before| <= |after|
    && forall i | 0 <= i < |before| ::
         && after[i].german == before[i].german
         && after[i].english == before[i].english
         && after[i].timesSeen >= before[i].timesSeen
         && (before[i].mastery == Mastered ==> after[i].mastery == Mastered)
  }

  lemma GrowsTransitive(a: seq<Entry>, b: seq<Entry>, c: seq<Entry>)
    requires Grows(a, b) && Grows(b, c)
    ensures Grows(a, c)
  {
  }

  /** The store update for one marker with trimmed terms `g` and `e`. A known
      term is counted once more. An unknown term gets a new entry, and, if it
      was never learned before, is learned and earns 10 points. */
  function See(st: Store, g: string, e: string, ctx: Context): (r: Store)
    ensures g in Keys(r.entries)
    ensures Grows(st.entries, r.entries)
    ensures UniqueKeys(st.entries) ==> UniqueKeys(r.entries)
    ensures g in Keys(st.entries) ==>
              && |r.entries| == |st.entries|
              && EntryFor(r.entries, g) == Sighted(EntryFor(st.entries, g))
    ensures g in Keys(st.entries) ==>
              r.entries == st.entries[FindEntry(st.entries, g).value := Sighted(EntryFor(st.entries, g))]
    ensures g !in Keys(st.entries) ==> r.entries == st.entries + [NewEntry(g, e, ctx)]
    ensures g !in Keys(st.entries) && g !in st.learned ==>
              r.learned == st.learned + [g] && r.newWords == st.newWords + 1
    ensures g in Keys(st.entries) || g in st.learned ==>
              r.learned == st.learned && r.newWords == st.newWords
    ensures r.points == st.points + PointsPerWord * (r.newWords - st.newWords)
    ensures NoDup(st.learned) ==> NoDup(r.learned)
  {
    match FindEntry(st.entries, g)
    case Some(k) =>
      var vs := st.entries[k := Sighted(st.entries[k])];
      assert Keys(vs) == Keys(st.entries);
      assert FindEntry(vs, g) == Some(k) by {
        var f := FindEntry(vs, g);
        assert f.Some?;
        assert !(f.value < k) && !(k < f.value);
      }
      st.(entries := vs)
    case None =>
      var vs := st.entries + [NewEntry(g, e, ctx)];
      assert vs[|st.entries|].german == g;
      assert Keys(vs) == Keys(st.entries) + [g];
      if g in st.learned then
        st.(entries := vs)
      else
        Store(vs, st.learned + [g], st.points + PointsPerWord, st.newWords + 1)
  }

  /** The two terms of a match as the store uses them: trimmed. */
  datatype Term = Term(german: string, english: string)

  /** The trimmed terms of a sequence of matches, in order. */
  function Terms(ms: seq<Markers.Marker>): (ts: seq<Term>)
    ensures |ts| == |ms|
    ensures forall i | 0 <= i < |ms| ::
              ts[i] == Term(Text.Trim(ms[i].german), Text.Trim(ms[i].english))
  {
    seq(|ms|, i requires 0 <= i < |ms| => Term(Text.Trim(ms[i].german), Text.Trim(ms[i].english)))
  }

  /** The German side of a sequence of terms, the trimmed matches of a
      text in order and with repeats. `Keys` is the same projection on
      stored entries, where each German term occurs once. */
  function Germans(ts: seq<Term>): (gs: seq<string>)
    ensures |gs| == |ts|
    ensures forall i | 0 <= i < |ts| :: gs[i] == ts[i].german
  {
    seq(|ts|, i requires 0 <= i < |ts| => ts[i].german)
  }

  lemma GermansCons(ts: seq<Term>)
    requires |ts| > 0
    ensures Germans(ts) == [ts[0].german] + Germans(ts[1..])
  {
  }

  /** The loop over `re.findall`'s matches, in order, on their trimmed terms. */
  function SeeAll(st: Store, ts: seq<Term>, ctx: Context): (r: Store)
    ensures Grows(st.entries, r.entries)
    ensures UniqueKeys(st.entries) ==> UniqueKeys(r.entries)
    ensures IsPrefix(st.learned, r.learned)
    ensures r.newWords - st.newWords == |r.learned| - |st.learned|
    ensures r.points == st.points + PointsPerWord * (r.newWords - st.newWords)
    ensures NoDup(st.learned) ==> NoDup(r.learned)
    ensures |ts| == 0 ==> r == st
    ensures forall i | 0 <= i < |ts| && ts[i].german !in Keys(st.entries) && ts[i].german !in st.learned ::
              ts[i].german in r.learned
    ensures forall k | 0 <= k < |st.entries| && st.entries[k].german !in Germans(ts) ::
              r.entries[k] == st.entries[k]
    decreases |ts|
  {
    if |ts| == 0 then
      st
    else
      var st1 := See(st, ts[0].german, ts[0].english, ctx);
      var r := SeeAll(st1, ts[1..], ctx);
      PrefixTransitive(st.learned, st1.learned, r.learned);
      GrowsTransitive(st.entries, st1.entries, r.entries);
      LearnsNewStep(st, ts, ctx, r);
      KeepsUnseenStep(st, ts, ctx, r);
      r
  }

  /** The step of `SeeAll` for "every new, never learned term is learned":
      the first term is learned by `See` and stays, and any later new term
      is still new after the first one was seen, unless it is the first. */
  lemma LearnsNewStep(st: Store, ts: seq<Term>, ctx: Context, r: Store)
    requires |ts| > 0
    requires IsPrefix(See(st, ts[0].german, ts[0].english, ctx).learned, r.learned)
    requires forall i | 0 <= i < |ts| - 1
               && ts[1..][i].german !in Keys(See(st, ts[0].german, ts[0].english, ctx).entries)
               && ts[1..][i].german !in See(st, ts[0].german, ts[0].english, ctx).learned ::
               ts[1..][i].german in r.learned
    ensures forall i | 0 <= i < |ts| && ts[i].german !in Keys(st.entries) && ts[i].german !in st.learned ::
              ts[i].german in r.learned
  {
    var g := ts[0].german;
    var st1 := See(st, g, ts[0].english, ctx);
    forall i | 0 <= i < |ts| && ts[i].german !in Keys(st.entries) && ts[i].german !in st.learned
      ensures ts[i].german in r.learned
    {
      if ts[i].german == g {
        assert st1.learned == st.learned + [g];
        assert st1.learned[|st.learned|] == g;
        assert r.learned[|st.learned|] == g;
      } else {
        if g in Keys(st.entries) {
          assert Keys(st1.entries) == Keys(st.entries);
        } else {
          assert Keys(st1.entries) == Keys(st.entries) + [g];
        }
        assert ts[1..][i - 1] == ts[i];
      }
    }
  }

  /** The step of `SeeAll` for "an entry whose term is not seen is left as it
      was": `See` changes only the entry of its own term. */
  lemma KeepsUnseenStep(st: Store, ts: seq<Term>, ctx: Context, r: Store)
    requires |ts| > 0
    requires Grows(See(st, ts[0].german, ts[0].english, ctx).entries, r.entries)
    requires forall k | 0 <= k < |See(st, ts[0].german, ts[0].english, ctx).entries|
               && See(st, ts[0].german, ts[0].english, ctx).entries[k].german !in Germans(ts[1..]) ::
               r.entries[k] == See(st, ts[0].german, ts[0].english, ctx).entries[k]
    ensures forall k | 0 <= k < |st.entries| && st.entries[k].german !in Germans(ts) ::
              r.entries[k] == st.entries[k]
  {
    var g := ts[0].german;
    var st1 := See(st, g, ts[0].english, ctx);
    forall k | 0 <= k < |st.entries| && st.entries[k].german !in Germans(ts)
      ensures r.entries[k] == st.entries[k]
    {
      assert Germans(ts)[0] == g;
      assert st1.entries[k] == st.entries[k] by {
        if g in Keys(st.entries) {
          assert st.entries[FindEntry(st.entries, g).value].german == g;
        }
      }
      assert st1.entries[k].german !in Germans(ts[1..]) by {
        assert forall j | 0 <= j < |ts| - 1 :: Germans(ts[1..])[j] == Germans(ts)[j + 1];
      }
    }
  }

  /** A term with an entry keeps one as the list grows. */
  lemma GrowsKeepsKeys(a: seq<Entry>, b: seq<Entry>, g: string)
    requires Grows(a, b) && g in Keys(a)
    ensures g in Keys(b)
  {
    var k :| 0 <= k < |a| && Keys(a)[k] == g;
    assert Keys(b)[k] == g;
  }

  /** After the loop every term seen has an entry. */
  lemma {:induction false} SeeAllCoversTerms(st: Store, ts: seq<Term>, ctx: Context)
    ensures forall i | 0 <= i < |ts| :: ts[i].german in Keys(SeeAll(st, ts, ctx).entries)
    decreases |ts|
  {
    if |ts| > 0 {
      var st1 := See(st, ts[0].german, ts[0].english, ctx);
      var r := SeeAll(st1, ts[1..], ctx);
      GrowsKeepsKeys(st1.entries, r.entries, ts[0].german);
      SeeAllCoversTerms(st1, ts[1..], ctx);
      assert forall i | 1 <= i < |ts| :: ts[i] == ts[1..][i - 1];
    }
  }

  /** Every term the loop newly learns is one of the terms seen. */
  lemma {:induction false} SeeAllLearnsOnlySeen(st: Store, ts: seq<Term>, ctx: Context)
    ensures forall j | |st.learned| <= j < |SeeAll(st, ts, ctx).learned| ::
              SeeAll(st, ts, ctx).learned[j] in Germans(ts)
    decreases |ts|
  {
    if |ts| > 0 {
      var gs := Germans(ts);
      var st1 := See(st, ts[0].german, ts[0].english, ctx);
      var r := SeeAll(st1, ts[1..], ctx);
      SeeAllLearnsOnlySeen(st1, ts[1..], ctx);
      assert Germans(ts[1..]) == gs[1..];
      forall j | |st.learned| <= j < |r.learned| ensures r.learned[j] in gs {
        if j < |st1.learned| {
          assert r.learned[j] == st1.learned[j] == gs[0];
        } else {
          assert r.learned[j] in gs[1..];
        }
      }
    }
  }

  /** Every entry the loop appends is for one of the terms seen. */
  lemma {:induction false} SeeAllAddsOnlySeen(st: Store, ts: seq<Term>, ctx: Context)
    ensures forall j | |st.entries| <= j < |SeeAll(st, ts, ctx).entries| ::
              SeeAll(st, ts, ctx).entries[j].german in Germans(ts)
    decreases |ts|
  {
    if |ts| > 0 {
      var gs := Germans(ts);
      var st1 := See(st, ts[0].german, ts[0].english, ctx);
      var r := SeeAll(st1, ts[1..], ctx);
      SeeAllAddsOnlySeen(st1, ts[1..], ctx);
      assert Germans(ts[1..]) == gs[1..];
      forall j | |st.entries| <= j < |r.entries| ensures r.entries[j].german in gs {
        if j < |st1.entries| {
          assert r.entries[j].german == st1.entries[j].german == gs[0];
        } else {
          assert r.entries[j].german in gs[1..];
        }
      }
    }
  }

  /** `x` is the trimmed group 1 of one of the markers `ms`. */
  predicate IsTrimmedGroupOne(x: string, ms: seq<Markers.Marker>) {
    exists i | 0 <= i < |ms| :: x == Text.Trim(ms[i].german)
  }

  /** A German term is among the trimmed terms of `ms` exactly when it is the
      trimmed group 1 of one of them. */
  lemma TrimmedGermans(ms: seq<Markers.Marker>)
    ensures forall x :: x in Germans(Terms(ms)) <==> IsTrimmedGroupOne(x, ms)
  {
    forall x ensures x in Germans(Terms(ms)) <==> IsTrimmedGroupOne(x, ms) {
      if x in Germans(Terms(ms)) {
        TrimmedOfGerman(ms, x);
      }
      if IsTrimmedGroupOne(x, ms) {
        var i :| 0 <= i < |ms| && x == Text.Trim(ms[i].german);
        GermanOfTrimmed(ms, i);
      }
    }
  }

  lemma TrimmedOfGerman(ms: seq<Markers.Marker>, x: string)
    requires x in Germans(Terms(ms))
    ensures IsTrimmedGroupOne(x, ms)
  {
    var gs := Germans(Terms(ms));
    var i :| 0 <= i < |gs| && gs[i] == x;
    assert x == Text.Trim(ms[i].german);
  }

  lemma GermanOfTrimmed(ms: seq<Markers.Marker>, i: int)
    requires 0 <= i < |ms|
    ensures Text.Trim(ms[i].german) in Germans(Terms(ms))
  {
    assert Germans(Terms(ms))[i] == Text.Trim(ms[i].german);
  }

  /** The loop on the matches of a text, in the matches' own terms: every
      trimmed group 1 that had neither an entry nor a place among the
      learned words is learned, an entry whose term is no trimmed group 1 is
      left as it was, and every appended entry is for a trimmed group 1. */
  lemma SeeAllOnMarkers(st: Store, ms: seq<Markers.Marker>, ctx: Context)
    ensures var r := SeeAll(st, Terms(ms), ctx);
            forall i | 0 <= i < |ms| && Text.Trim(ms[i].german) !in Keys(st.entries)
                                     && Text.Trim(ms[i].german) !in st.learned ::
              Text.Trim(ms[i].german) in r.learned
    ensures var r := SeeAll(st, Terms(ms), ctx);
            forall k | 0 <= k < |st.entries|
                       && forall i | 0 <= i < |ms| :: Text.Trim(ms[i].german) != st.entries[k].german ::
              r.entries[k] == st.entries[k]
    ensures var r := SeeAll(st, Terms(ms), ctx);
            forall j | |st.entries| <= j < |r.entries| ::
              IsTrimmedGroupOne(r.entries[j].german, ms)
  {
    var ts := Terms(ms);
    var r := SeeAll(st, ts, ctx);
    TrimmedGermans(ms);
    SeeAllAddsOnlySeen(st, ts, ctx);
    forall i | 0 <= i < |ms| && Text.Trim(ms[i].german) !in Keys(st.entries)
                             && Text.Trim(ms[i].german) !in st.learned
      ensures Text.Trim(ms[i].german) in r.learned
    {
      assert ts[i].german == Text.Trim(ms[i].german);
    }
  }

  /** `See` entry by entry, when keys are unique: the entry of the term
      seen gets one more sighting, an appended entry is the new one, and
      every other entry is as it was. */
  lemma SeeByIndex(st: Store, g: string, e: string, ctx: Context)
    requires UniqueKeys(st.entries)
    ensures var r := See(st, g, e, ctx);
            forall k | 0 <= k < |r.entries| ::
              r.entries[k] == if k < |st.entries| then
                                (if st.entries[k].german == g then Sighted(st.entries[k]) else st.entries[k])
                              else NewEntry(g, e, ctx)
  {
    var r := See(st, g, e, ctx);
    forall k | 0 <= k < |r.entries|
      ensures r.entries[k] == if k < |st.entries| then
                                (if st.entries[k].german == g then Sighted(st.entries[k]) else st.entries[k])
                              else NewEntry(g, e, ctx)
    {
      if g in Keys(st.entries) {
        var f := FindEntry(st.entries, g).value;
        assert st.entries[f].german == g;
        assert k != f ==> st.entries[k].german != g;
      }
    }
  }

  /** From `vs` to `rs`, stored entries change only in their count and
      mastery, and each appended entry is for a term with no entry in `vs`
      and carries the day, difficulty and topic of `ctx`. */
  predicate KeepsAndAppends(vs: seq<Entry>, rs: seq<Entry>, ctx: Context) {
    && |vs| <= |rs|
    && (forall k | 0 <= k < |vs| ::
          rs[k].(timesSeen := vs[k].timesSeen, mastery := vs[k].mastery) == vs[k])
    && (forall j | |vs| <= j < |rs| ::
          && rs[j].german !in Keys(vs)
          && rs[j].(timesSeen := 1, mastery := Learning) == NewEntry(rs[j].german, rs[j].english, ctx))
  }

  /** From `vs` to `rs`, each entry was seen once more per occurrence of its
      term in `gs`, starting from its old count, or from 0 if appended. */
  predicate CountsSightings(vs: seq<Entry>, gs: seq<string>, rs: seq<Entry>) {
    && |vs| <= |rs|
    && forall k | 0 <= k < |rs| ::
         rs[k].timesSeen == (if k < |vs| then vs[k].timesSeen else 0) + Count(gs, rs[k].german)
  }

  /** From `vs` to `rs`, an entry is Mastered iff it was already, or its
      term occurs in `gs` and it has reached three sightings. */
  predicate MasteryFollows(vs: seq<Entry>, gs: seq<string>, rs: seq<Entry>) {
    && |vs| <= |rs|
    && forall k | 0 <= k < |rs| ::
         rs[k].mastery == Mastered <==>
           || (k < |vs| && vs[k].mastery == Mastered)
           || (Count(gs, rs[k].german) > 0 && rs[k].timesSeen >= 3)
  }

  /** One `See` keeps and appends, and appends at most the entry for `g`
      with translation `e`. */
  lemma SeeKeepsAndAppends(st: Store, g: string, e: string, ctx: Context)
    ensures KeepsAndAppends(st.entries, See(st, g, e, ctx).entries, ctx)
    ensures var b := See(st, g, e, ctx).entries;
            && |b| <= |st.entries| + 1
            && (|st.entries| < |b| ==> b[|st.entries|].german == g && b[|st.entries|].english == e)
  {
  }

  /** One `See`, when keys are unique, counts and masters as the loop does
      for the one-term list `[g]`. */
  lemma SeeCountsOnce(st: Store, g: string, e: string, ctx: Context)
    requires UniqueKeys(st.entries)
    ensures CountsSightings(st.entries, [g], See(st, g, e, ctx).entries)
    ensures MasteryFollows(st.entries, [g], See(st, g, e, ctx).entries)
  {
    SeeByIndex(st, g, e, ctx);
    assert forall x :: Count([g], x) == if g == x then 1 else 0;
  }

  lemma KeepsAndAppendsTransitive(a: seq<Entry>, b: seq<Entry>, c: seq<Entry>, ctx: Context)
    requires KeepsAndAppends(a, b, ctx) && KeepsAndAppends(b, c, ctx)
    ensures KeepsAndAppends(a, c, ctx)
  {
  }

  /** Counting composes: `g` seen from `a` to `b`, then `gs` from `b` to `c`. */
  lemma CountsSightingsStep(a: seq<Entry>, b: seq<Entry>, c: seq<Entry>, g: string, gs: seq<string>, ctx: Context)
    requires KeepsAndAppends(b, c, ctx) && g in Keys(b)
    requires CountsSightings(a, [g], b) && CountsSightings(b, gs, c)
    ensures CountsSightings(a, [g] + gs, c)
  {
    forall k | 0 <= k < |c|
      ensures c[k].timesSeen == (if k < |a| then a[k].timesSeen else 0) + Count([g] + gs, c[k].german)
    {
      var x := c[k].german;
      assert ([g] + gs)[1..] == gs;
      assert Count([g] + gs, x) == (if g == x then 1 else 0) + Count(gs, x);
      assert Count([g], x) == if g == x then 1 else 0;
      if k < |b| {
        assert b[k].german == x;
      }
    }
  }

  /** Mastery composes like counting does. */
  lemma MasteryFollowsStep(a: seq<Entry>, b: seq<Entry>, c: seq<Entry>, g: string, gs: seq<string>, ctx: Context)
    requires KeepsAndAppends(b, c, ctx) && g in Keys(b)
    requires CountsSightings(a, [g], b) && CountsSightings(b, gs, c)
    requires MasteryFollows(a, [g], b) && MasteryFollows(b, gs, c)
    ensures MasteryFollows(a, [g] + gs, c)
  {
    forall k | 0 <= k < |c|
      ensures c[k].mastery == Mastered <==>
                || (k < |a| && a[k].mastery == Mastered)
                || (Count([g] + gs, c[k].german) > 0 && c[k].timesSeen >= 3)
    {
      var x := c[k].german;
      assert ([g] + gs)[1..] == gs;
      assert Count([g] + gs, x) == (if g == x then 1 else 0) + Count(gs, x);
      assert Count([g], x) == if g == x then 1 else 0;
      if k < |b| {
        assert b[k].german == x;
      }
    }
  }

  /** What else the loop keeps and makes: a stored entry changes only in
      its count and mastery; an appended entry is for a term that had no
      entry, and carries the day, difficulty and topic of the call. */
  lemma {:induction false} SeeAllNewEntries(st: Store, ts: seq<Term>, ctx: Context)
    ensures KeepsAndAppends(st.entries, SeeAll(st, ts, ctx).entries, ctx)
    decreases |ts|
  {
    if |ts| > 0 {
      var st1 := See(st, ts[0].german, ts[0].english, ctx);
      SeeAllNewEntries(st1, ts[1..], ctx);
      SeeKeepsAndAppends(st, ts[0].german, ts[0].english, ctx);
      KeepsAndAppendsTransitive(st.entries, st1.entries, SeeAll(st1, ts[1..], ctx).entries, ctx);
    }
  }

  /** The sighting counts after the loop, when keys are unique: each stored
      entry is seen once more per term equal to its own, and an appended
      entry once per such term. */
  lemma {:induction false} SeeAllCountsSightings(st: Store, ts: seq<Term>, ctx: Context)
    requires UniqueKeys(st.entries)
    ensures CountsSightings(st.entries, Germans(ts), SeeAll(st, ts, ctx).entries)
    decreases |ts|
  {
    if |ts| > 0 {
      var g := ts[0].german;
      var st1 := See(st, g, ts[0].english, ctx);
      SeeAllCountsSightings(st1, ts[1..], ctx);
      SeeAllNewEntries(st1, ts[1..], ctx);
      SeeCountsOnce(st, g, ts[0].english, ctx);
      GermansCons(ts);
      CountsSightingsStep(st.entries, st1.entries, SeeAll(st1, ts[1..], ctx).entries, g, Germans(ts[1..]), ctx);
    }
  }

  lemma SeeAllCountsWhenUnique(st: Store, ts: seq<Term>, ctx: Context)
    ensures UniqueKeys(st.entries) ==> CountsSightings(st.entries, Germans(ts), SeeAll(st, ts, ctx).entries)
  {
    if UniqueKeys(st.entries) {
      SeeAllCountsSightings(st, ts, ctx);
    }
  }

  /** Mastery after the loop, when keys are unique: an entry is Mastered iff
      it was before, or it was seen and has reached three sightings. */
  lemma {:induction false} SeeAllMastery(st: Store, ts: seq<Term>, ctx: Context)
    requires UniqueKeys(st.entries)
    ensures MasteryFollows(st.entries, Germans(ts), SeeAll(st, ts, ctx).entries)
    decreases |ts|
  {
    if |ts| > 0 {
      var g := ts[0].german;
      var st1 := See(st, g, ts[0].english, ctx);
      SeeAllMastery(st1, ts[1..], ctx);
      SeeAllCountsSightings(st1, ts[1..], ctx);
      SeeAllNewEntries(st1, ts[1..], ctx);
      SeeCountsOnce(st, g, ts[0].english, ctx);
      GermansCons(ts);
      MasteryFollowsStep(st.entries, st1.entries, SeeAll(st1, ts[1..], ctx).entries, g, Germans(ts[1..]), ctx);
    }
  }

  /** The first term of `ts` for the word of `v` carries the translation
      `v` holds. */
  predicate FirstSighting(ts: seq<Term>, v: Entry) {
    exists i | 0 <= i < |ts| ::
      && ts[i] == Term(v.german, v.english)
      && forall h | 0 <= h < i :: ts[h].german != v.german
  }

  /** Every entry of `rs` from position `n` on is first sighted in `ts`. */
  predicate FirstSightedFrom(ts: seq<Term>, n: nat, rs: seq<Entry>) {
    forall j | n <= j < |rs| :: FirstSighting(ts, rs[j])
  }

  /** An appended entry holds the translation given at the first sighting of
      its term. */
  lemma {:induction false} SeeAllFirstTranslation(st: Store, ts: seq<Term>, ctx: Context)
    ensures FirstSightedFrom(ts, |st.entries|, SeeAll(st, ts, ctx).entries)
    decreases |ts|
  {
    if |ts| > 0 {
      var st1 := See(st, ts[0].german, ts[0].english, ctx);
      var r := SeeAll(st1, ts[1..], ctx);
      SeeAllFirstTranslation(st1, ts[1..], ctx);
      SeeAllNewEntries(st1, ts[1..], ctx);
      SeeKeepsAndAppends(st, ts[0].german, ts[0].english, ctx);
      FirstSightingStep(ts, st.entries, st1.entries, r.entries, ctx);
    }
  }

  /** The step of `SeeAllFirstTranslation`: entries appended for the first
      term come from it, and later ones are first sighted in the rest. */
  lemma FirstSightingStep(ts: seq<Term>, a: seq<Entry>, b: seq<Entry>, rs: seq<Entry>, ctx: Context)
    requires |ts| > 0 && ts[0].german in Keys(b)
    requires |a| <= |b| <= |a| + 1
    requires |a| < |b| ==> b[|a|].german == ts[0].german && b[|a|].english == ts[0].english
    requires KeepsAndAppends(b, rs, ctx)
    requires FirstSightedFrom(ts[1..], |b|, rs)
    ensures FirstSightedFrom(ts, |a|, rs)
  {
    forall j | |a| <= j < |rs| ensures FirstSighting(ts, rs[j]) {
      var x := rs[j].german;
      if j < |b| {
        assert rs[j].(timesSeen := b[j].timesSeen, mastery := b[j].mastery) == b[j];
        assert ts[0] == Term(x, rs[j].english);
      } else {
        var i :| 0 <= i < |ts| - 1 && ts[1..][i] == Term(x, rs[j].english)
                 && forall h | 0 <= h < i :: ts[1..][h].german != x;
        assert x != ts[0].german;
        assert ts[i + 1] == ts[1..][i];
        forall h | 1 <= h < i + 1 ensures ts[h].german != x {
          assert ts[h] == ts[1..][h - 1];
        }
      }
    }
  }

  /** No word learned from position `n` on had an entry in `vs`. */
  predicate LearnedAfterAreNew(learned: seq<string>, n: nat, vs: seq<Entry>) {
    forall j | n <= j < |learned| :: learned[j] !in Keys(vs)
  }

  /** A word is newly learned only if it had no entry before the loop. */
  lemma {:induction false} SeeAllLearnsOnlyNew(st: Store, ts: seq<Term>, ctx: Context)
    ensures LearnedAfterAreNew(SeeAll(st, ts, ctx).learned, |st.learned|, st.entries)
    decreases |ts|
  {
    if |ts| > 0 {
      var g := ts[0].german;
      var st1 := See(st, g, ts[0].english, ctx);
      SeeAllLearnsOnlyNew(st1, ts[1..], ctx);
      LearnsOnlyNewStep(st, st1, SeeAll(st1, ts[1..], ctx), g);
    }
  }

  /** The step of `SeeAllLearnsOnlyNew`: the first term is learned only when
      it has no entry, and a later word without one in `b` had none in `a`. */
  lemma LearnsOnlyNewStep(a: Store, b: Store, r: Store, g: string)
    requires b.learned == a.learned || (b.learned == a.learned + [g] && g !in Keys(a.entries))
    requires Grows(a.entries, b.entries)
    requires IsPrefix(b.learned, r.learned)
    requires LearnedAfterAreNew(r.learned, |b.learned|, b.entries)
    ensures LearnedAfterAreNew(r.learned, |a.learned|, a.entries)
  {
    forall j | |a.learned| <= j < |r.learned| ensures r.learned[j] !in Keys(a.entries) {
      if j < |b.learned| {
        assert r.learned[j] == b.learned[j];
      } else if r.learned[j] in Keys(a.entries) {
        GrowsKeepsKeys(a.entries, b.entries, r.learned[j]);
      }
    }
  }

  /** An entry appended for a term without one is that term's entry. */
  lemma {:induction false} FindAppended(vs: seq<Entry>, v: Entry)
    requires v.german !in Keys(vs)
    ensures FindEntry(vs + [v], v.german) == Some(|vs|)
    decreases |vs|
  {
    if |vs| == 0 {
      assert (vs + [v])[0] == v;
    } else {
      assert Keys(vs)[0] == vs[0].german;
      assert Keys(vs[1..]) == Keys(vs)[1..];
      FindAppended(vs[1..], v);
      assert (vs + [v])[1..] == vs[1..] + [v];
    }
  }

  /** The first sighting of a term neither stored nor learned creates its
      entry, learns it and earns 10 points. */
  lemma SeeNewTerm(st: Store, g: string, e: string, ctx: Context)
    requires g !in Keys(st.entries) && g !in st.learned
    ensures var r := See(st, g, e, ctx);
            && g in Keys(r.entries)
            && EntryFor(r.entries, g) == NewEntry(g, e, ctx)
            && r.learned == st.learned + [g]
            && r.points == st.points + PointsPerWord
  {
    FindAppended(st.entries, NewEntry(g, e, ctx));
  }

  /** A further sighting of a stored term counts it once more and earns
      nothing. */
  lemma SeeKnownTerm(st: Store, g: string, e: string, ctx: Context)
    requires g in Keys(st.entries)
    ensures var r := See(st, g, e, ctx);
            && g in Keys(r.entries)
            && EntryFor(r.entries, g) == Sighted(EntryFor(st.entries, g))
            && r.learned == st.learned
            && r.points == st.points
  {
  }

  /** A term met for the first time and then twice more is Mastered after
      the third sighting, seen three times, and earned its 10 points once. */
  lemma ThirdSightingMasters(st: Store, g: string, e1: string, e2: string, e3: string, ctx: Context)
    requires g !in Keys(st.entries) && g !in st.learned
    ensures var r := See(See(See(st, g, e1, ctx), g, e2, ctx), g, e3, ctx);
            && EntryFor(r.entries, g).timesSeen == 3
            && EntryFor(r.entries, g).mastery == Mastered
            && r.points == st.points + PointsPerWord
            && r.learned == st.learned + [g]
  {
    var s1 := See(st, g, e1, ctx);
    SeeNewTerm(st, g, e1, ctx);
    var s2 := See(s1, g, e2, ctx);
    SeeKnownTerm(s1, g, e2, ctx);
    SeeKnownTerm(s2, g, e3, ctx);
  }
}
